=== FILE: README.md ===
# Theme sync core, in Dafny

A model of the core of a theme synchronisation tool. The tool mirrors a shop's theme files between a local project directory and the shop's admin API. Each theme file is an *asset*: a key such as `assets/application.js`, plus its content. Text content travels as `Value`; binary content travels base64-encoded as `Attachment`.

The model covers five pieces. Each is a pure function over immutable values, with the properties the code and its tests promise proved as lemmas.

- **Path resolution** (`project_path.dfy`, on top of `filepath.dfy` and `strings.dfy`). It maps a file under the project root to its asset key using the ordered table of eight recognised directories.
  - `filepath.Clean` is modelled lexically over `/`-separated segments: empty and `.` segments are dropped, inner `..` folds, a `..` at a rooted top is dropped, and the empty relative path becomes `.`.
  - `filepath.Dir`, a two-argument `filepath.Join` and `strings.TrimPrefix` are modelled as well.
- **Asset content** (`asset.dfy`, `base64.dfy`).
  - The asset record and its validity.
  - Extracting its bytes.
  - Loading a file into an asset (`LoadAsset`, `ReadAsset`) and writing one out (`Write`).
  - A base64 encoder and decoder following section 4 of RFC 4648, with the standard alphabet and `=` padding. As Go's `StdEncoding` does, the decoder skips `\r` and `\n`.
- **The filesystem** (`disk.dfy`). `os.Stat`, `os.MkdirAll`, `os.Create` and `File.Write` act on a map from cleaned paths to `Missing | Directory | File(bytes)`. Each returns either the new map or Go's error text.
- **Download** (`download.go`, modelled in `download.dfy`).
  - Each `writeToDisk` step yields one outcome: a write event naming `<cwd>/<key>`, or one notification.
  - The bulk and targeted loops are folds that produce the outcomes in order, followed by a single `Done`.
  - The goroutines are flattened into that sequential order.
- **Admin API requests** (`transport.dfy`, `request.dfy`).
  - Admin URLs and endpoints.
  - The asset query string and the verb-to-method map.
  - JSON body shapes as a small JSON tree.
  - The standard header set and the user agent.
  - Rejection of target and proxy URLs the URL parser refuses.
  - Raw and JSON bodies.

Everything the modelled code calls but does not itself define becomes a parameter:

| parameter | stands for |
|---|---|
| `isText` | the text/binary classifier used by asset loading |
| `reject` | the URL parser's verdict |
| `Retrieval` | fetching one remote asset |
| `Host` | the working directory (or the error getting it), the disk, and whether the disk is full |
| `Platform` and the client version | the build's `GOOS`, `GOARCH` and version |

The one URL rule both tests depend on is modelled outright: a URL starting with `:` has no scheme.

Two places choose an asset's bytes, in opposite orders, and the model keeps both:

- **Data choice.**
  - `writeToDisk` prefers a non-empty `Value` over `Attachment` (`commands/download.go:92-102`), so `Download.Payload` does too.
  - The asset's `Contents` decodes a non-empty `Attachment` and otherwise takes `Value`. `src/shopify/asset.go` is not part of this model, and its tests (`src/shopify/asset_test.go:75-78`) never set both fields, so attachment-first is the model's own choice.
  - `Download.PayloadAgreesWithContents` proves the two agree whenever an asset carries only one form of content, which is what loading produces.
- **User agent.** The newer request test expects `go/themekit (<os>; <arch>; <version>)` and the older client test expects no version. `Requests.UserAgent` takes the version as an `Option` and covers both.

## Model

| member | source | states |
|---|---|---|
| Strings.TrimPrefix | kit/path.go:41-44 | a present prefix is removed exactly (prefix + result is the input); an absent one leaves the input whole |
| Strings.FormatInt | kit/http_client_test.go:75-79 | `%v` of an integer: a leading `-` exactly for negatives, and the digits parse back to the magnitude |
| Strings.ParseDecimalOfDecimal | kit/http_client_test.go:75-79 | decimal printing of a number is undone by parsing |
| Strings.FormatIntInjective | kit/http_client_test.go:75-79 | distinct theme ids print differently |
| FilePath.Fold | kit/path.go:42 | one step of Clean's scan keeps the accumulated segments canonical: no empty or `.` segment, every `..` ahead of all names, and none under a rooted path |
| FilePath.Resolve | kit/path.go:42 | Clean's scan over all raw segments yields canonical segments |
| FilePath.Segments | kit/path.go:42 | the segments Clean settles on are canonical for the path's rootedness |
| FilePath.Clean | kit/path.go:42 | a cleaned path is never empty and is rooted exactly when the input is |
| FilePath.ResolveConcat | kit/path.go:42 | Clean's scan over a concatenation resumes where the first part left off |
| FilePath.ResolveCanonical | kit/path.go:42 | already canonical segments pass through Clean's scan unchanged |
| FilePath.SegmentsOfRender | kit/path.go:42 | spelling canonical segments as a path and cleaning gives the same segments and rootedness back |
| FilePath.CleanOfRender | kit/path.go:42 | a path spelled from canonical segments is its own Clean |
| FilePath.CleanIdempotent | kit/path.go:42 | cleaning a cleaned path changes nothing |
| FilePath.CleanTrailingSlash | kit/path.go:42-43 | a cleaned path ends in `/` only when it is `/` itself; for every other root, the cleaned root followed by the `/` separator ends in exactly one `/` |
| FilePath.CleanNoDoubleSlash | kit/path.go:42-43 | no cleaned path starts with `//` |
| FilePath.CleanDotPrefix | kit/path.go:26-27 | `./q` cleans to what `q` cleans to |
| FilePath.CleanDoubleSlash | kit/path.go:26-27 | `a//b` cleans to what `a/b` cleans to |
| FilePath.CleanSkipsSegment | kit/path.go:26-27 | an empty or `.` segment between two parts is skipped by Clean |
| FilePath.CleanOfTwo | kit/path.go:49 | two ordinary names joined by `/` (the first not `..`) are already clean |
| FilePath.CleanTrailing | commands/download.go:78 | a trailing `/` does not change where a non-empty path points |
| FilePath.Join2 | kit/path.go:49 | joining two parts of which one is non-empty gives a non-empty path |
| FilePath.Join2DotPrefix | kit/path.go:42 | joining a directory with `./q` is joining it with `q`, since Clean drops the leading `.` |
| FilePath.Join2Plain | src/shopify/asset_test.go:52 | joining a key of ordinary names onto a directory appends the key's segments to the directory's, still canonical |
| FilePath.LastSlash | commands/download.go:78 | the index of the last `/`, or -1 when there is none: no `/` follows it |
| FilePath.LastSlashBefore | commands/download.go:78 | the last separator of `x/name` is the one just before `name` |
| FilePath.Dir | commands/download.go:78 | `filepath.Dir` never returns the empty path |
| FilePath.DirOfRender | commands/download.go:78 | `Dir` of a canonical path is the path of its segments without the last one |
| ProjectPath.ExactMatchFrom | kit/path.go:31-37 | the loop finds an entry equal to the relative path exactly when one exists from that index on |
| ProjectPath.IsProjectDirectory | kit/path.go:25-37 | true exactly when the cleaned path, with `<clean root>/` stripped, is one of the eight table entries |
| ProjectPath.Find | kit/path.go:47 | the first position from `from` on where the pattern occurs; none before it, and None only when it occurs nowhere |
| ProjectPath.SplitAfter2 | kit/path.go:47 | `SplitAfterN(s, sep, 2)`: the whole input when `sep` occurs nowhere; otherwise two parts that concatenate to the input, cut just after the first occurrence of `sep`; a leading `sep` cuts right after it |
| ProjectPath.SplitAfter2Cuts | kit/path.go:47-48 | the split yields two parts exactly when the separator occurs somewhere in the input |
| ProjectPath.AcceptsIff | kit/path.go:48 | the loop's test (two parts and a `dir/` prefix) holds exactly when `dir/` prefixes the relative path |
| ProjectPath.MatchFrom | kit/path.go:46-51 | the scan returns the first entry whose `dir/` prefixes the path, none earlier does; None only when no entry does |
| ProjectPath.AssetLocationsOrdered | kit/path.go:9-18 | no table entry is a directory prefix of a later one (`templates/customers` precedes `templates`); every entry has more than one character and starts with a lower-case letter |
| ProjectPath.RelativeIsClean | kit/path.go:41-44 | the root-relative path is already clean, whether or not the root prefix was present |
| ProjectPath.KeyOfMatch | kit/path.go:47-49 | joining the matched directory with the part after `dir/` rebuilds the clean relative path |
| ProjectPath.PathToProjectSpec | kit/path.go:40-54 | the key is `""` exactly when no `entry/` prefixes the relative path; otherwise it equals the relative path and starts with some `entry/` |
| ProjectPath.MatchIsMostSpecific | kit/path.go:46-51 | the entry matched is in the table, prefixes the path, and no other prefixing entry is longer |
| ProjectPath.PathInProject | kit/path.go:21-23 | pathInProject holds exactly when the relative path is an entry or lies under one |
| ProjectPath.PathToProject | kit/path.go:40-54 | the key is `""` exactly when no recognised `entry/` prefixes the root-relative path |
| ProjectPath.BareLocation | kit/path.go:21-37 | a relative path equal to an entry is a project directory and in the project; it has no key unless it is `templates/customers`, which lies under `templates` |
| ProjectPath.NoLocationUnderBareEntry | kit/path.go:11-17 | no entry prefixes a separator-free entry, so a bare such directory has no key |
| ProjectPath.OutsideRoot | kit/path.go:41-44 | an absolute path outside the root is left whole, has no key, is no project directory and is not in the project |
| ProjectPath.RootSlashMatchesNothing | kit/path.go:40-54 | under a root that cleans to `/` the prefix to strip is `//`, which no cleaned path has: an absolute path is left whole, has no key and is not in the project |
| ProjectPath.CleanRendered | kit/path.go:42 | a path spelled from canonical segments cleans to itself |
| ProjectPath.RelativeOfClean | kit/path.go:41-44 | under a clean root, the clean path `root/rel` is relative path `rel` |
| ProjectPath.CustomersBeforeTemplates | kit/path.go:46-49 | `/proj/templates/customers/x` matches `templates/customers` and keys as `templates/customers/x` |
| ProjectPath.NonCanonicalSpellings | kit/path.go:41-49 | `./assets/a.js` and `assets//a.js` both key as `assets/a.js` |
| ProjectPath.KeyOfCleanAssetPath | kit/path.go:41-49 | relative to `.`, any path cleaning to `assets/a.js` keys as `assets/a.js` |
| ProjectPath.BareAssetsDirectory | kit/path.go:21-23 | `/proj/assets` under `/proj` has no key but is a project directory, hence in the project |
| Base64.AlphabetBijection | commands/download.go:97 | the standard alphabet maps the 64 sextets to 64 characters and back |
| Base64.Encode | src/shopify/asset_test.go:77 | the encoding of n bytes has 4 * ceil(n / 3) characters |
| Base64.EncodeAlphabet | src/shopify/asset_test.go:77 | every encoded character is in the alphabet or is `=` |
| Base64.EncodeHasNoLineBreaks | src/shopify/asset_test.go:77 | encoded text holds no `\r` or `\n` |
| Base64.EncodeEmpty | load_asset_test.go:54-64 | only the empty byte sequence encodes to the empty text, so binary content gives a non-empty attachment |
| Base64.DecodeQuantum | commands/download.go:97 | a decoded quantum gives 1 to 3 bytes, fewer than 3 only when it is the last |
| Base64.DecodeQuanta | commands/download.go:97 | decoding succeeds only on a whole number of quanta, and gives three bytes per quantum less at most two |
| Base64.Decode | commands/download.go:97 | with line breaks dropped, success needs a whole number of quanta and gives three bytes per quantum, less one or two for padding; `Base64.RoundTrip` shows it inverts `Encode` |
| Base64.StripLineBreaks | commands/download.go:97 | the result holds no `\r` or `\n`, is never longer, and is the input itself when it had none |
| Base64.StripConcat | commands/download.go:97 | removing line breaks from a concatenation removes them from each piece, in order |
| Base64.DecodeIgnoresLineBreak | commands/download.go:97 | inserting `\n`, `\r` or `\r\n` anywhere in the input does not change what it decodes to |
| Base64.BlockRoundTrip | src/shopify/asset_test.go:77 | the four sextets of a three-byte block decode to the same three bytes |
| Base64.OneByteRoundTrip | src/shopify/asset_test.go:77 | a final single byte, padded `xx==`, decodes back |
| Base64.TwoByteRoundTrip | src/shopify/asset_test.go:77 | a final pair of bytes, padded `xxx=`, decodes back |
| Base64.FullBlockRoundTrip | src/shopify/asset_test.go:77 | a full block decodes back whether or not it is last |
| Base64.LeadingQuantum | commands/download.go:97 | a quantum in front of more text decodes as its bytes followed by the rest's |
| Base64.QuantaRoundTrip | src/shopify/asset_test.go:77 | the quanta of an encoding decode back to the original bytes |
| Base64.RoundTrip | src/shopify/asset_test.go:77 | `Decode(Encode(b)) == b` for every byte sequence |
| Base64.RaggedInputRejected | src/shopify/asset_test.go:76 | line-break-free text whose length is not a multiple of four is rejected |
| Disk.Stat | commands/download.go:71-75 | succeeds exactly when something is at the path, giving that node; otherwise the error says `no such file or directory` |
| Disk.MkdirAllSegments | commands/download.go:78-82 | on success the path is a directory |
| Disk.MkdirAllAddsOnlyDirectories | commands/download.go:78-82 | MkdirAll changes nothing except turning missing paths into directories |
| Disk.MkdirAllFailsAtFile | commands/download.go:78-82 | MkdirAll fails only when the path or one of its ancestors is a file |
| Disk.MkdirAllTouchesOnlyPrefixes | commands/download.go:78-82 | MkdirAll leaves every path other than the target and its ancestors as it was |
| Disk.MkdirAll | commands/download.go:78-82 | on success the path is a directory and only directories were added; a file at the path fails it; with no file at the path or any ancestor it succeeds |
| Disk.Create | commands/download.go:84-88 | succeeds exactly when the path is not a directory and its parent is one; it leaves an empty file there and nothing else changes |
| Disk.WriteFile | commands/download.go:104-106 | succeeds unless the disk is full and there is data; the file then holds exactly the data and nothing else changes |
| Assets.BytesOfText | load_asset_test.go:42-52 | the bytes of a file read as text are the file's bytes |
| Assets.DecodeFailure | commands/download.go:99 | the decode notification names `Could not decode` and the asset's key |
| Assets.Contents | src/shopify/asset_test.go:69-90 | with no attachment, exactly the value's bytes, one per character; with an attachment, success exactly when it is valid base64, and then exactly its decoded bytes; failure names `Could not decode` and the key |
| Assets.FromBytes | load_asset_test.go:31-64 | the asset has the given key and at most one content form; it is valid exactly when there were bytes, and its contents are those bytes |
| Assets.LoadAsset | load_asset_test.go:31-76 | no error exactly when a file is there; a directory gives exactly `File is a directory`; an error asset is invalid; a file gives an asset valid iff non-empty, whose contents are the file's bytes: the text as value, or a non-empty attachment for binary |
| Assets.ReadAsset | src/shopify/asset_test.go:119-143 | no error exactly when a file is there, and any error comes with the zero asset; missing mentions `no such file`; a directory gives the is-a-directory error; a file keys as the cleaned input, with its text as value or its base64 as attachment |
| Assets.TextRoundTrip | src/shopify/asset_test.go:75 | text content comes back byte for byte from `contents()` |
| Assets.AttachmentRoundTrip | src/shopify/asset_test.go:77 | bytes encoded as an attachment come back from `contents()` |
| Assets.ValueOnlyContents | src/shopify/asset_test.go:75 | `"this is content"` as a value gives its 15 bytes |
| Assets.BadAttachmentContents | src/shopify/asset_test.go:76 | `"this is bad content"` as an attachment fails with `Could not decode` |
| Assets.GoodAttachmentContents | src/shopify/asset_test.go:77 | the base64 of `"this is good content"` gives back its 20 bytes |
| Assets.ReadAssetDotSpelling | kit/path.go:42 | `./q` and `q` read into the same asset with the same error, since the key is the cleaned input |
| Assets.ReadApplicationJs | src/shopify/asset_test.go:127-128 | a text file at `assets/application.js` reads as that key with its text as value, spelled with or without `./` |
| Assets.Write | src/shopify/asset_test.go:43-67 | a missing outdir fails with `file or directory`; undecodable content fails; on success the target holds exactly the content and elsewhere only directories were added |
| Assets.WriteThenRead | src/shopify/asset_test.go:55-64 | what `Write` puts on disk reads back without error, keyed by the cleaned key, with the same contents |
| Assets.WriteIntoExistingOutdir | src/shopify/asset_test.go:50-64 | a plain key under an existing outdir, with no file at the target's directory or any ancestor and no directory at the target, is written, making missing parents and overwriting an old file, and the target then holds the asset's contents |
| Download.Payload | commands/download.go:92-102 | a non-empty value gives its bytes verbatim; otherwise a valid attachment gives exactly its decoding and an invalid one fails naming `Could not decode` and the key; neither gives no bytes |
| Download.WriteToDisk | commands/download.go:64-122 | one step never signals done; a write event names `<cwd>/<key>` and the file there then holds the payload; every other path keeps what it held unless it was missing and became a directory, and without a working directory nothing changes |
| Download.EventIffAllSucceed | commands/download.go:64-122 | a write event is reported exactly when getwd, stat, mkdir, create, decoding and write all succeed; otherwise one notification |
| Download.ValueTakesPriority | commands/download.go:92-95 | with a non-empty value the file holds the value's bytes, even when an attachment is set too |
| Download.DecodeFailureLeavesEmptyFile | commands/download.go:84-102 | a bad attachment gives a `Could not decode` notification, yet the target was already created empty |
| Download.EmptyAssetStillWrites | commands/download.go:92-121 | an asset with no content still leaves an empty file and a write event |
| Download.PayloadAgreesWithContents | commands/download.go:92-102 | for an asset with one form of content, `writeToDisk` writes what `contents()` gives |
| Download.WriteAll | commands/download.go:40-50 | one outcome per asset, none of them done |
| Download.WriteAllInOrder | commands/download.go:40-50 | the i-th outcome is the i-th asset's write on the disk the earlier writes left |
| Download.WriteAllTargets | commands/download.go:40-50 | every write event names the target of the asset at its position |
| Download.DownloadAllFiles | commands/download.go:40-50 | the assets' outcomes in order, then exactly one done, at the end |
| Download.FetchAndWrite | commands/download.go:53-59 | a failed fetch is one notification carrying its error and leaves the disk alone; a fetched asset is written |
| Download.FetchAll | commands/download.go:52-62 | one outcome per name, none of them done, and the names requested are exactly the input names in order |
| Download.FetchAllInOrder | commands/download.go:52-62 | the i-th outcome comes from fetching the i-th name on the disk the earlier steps left |
| Download.FailedFetchIsolated | commands/download.go:54-55 | a name that cannot be fetched is reported at its own position and the loop goes on |
| Download.WritesBounded | commands/download.go:52-62 | with N names of which M cannot be fetched, every name gives a write or a notice; at least M notices and at most N - M writes; when every fetched asset can be written, exactly N - M writes and M notices |
| Download.DownloadFiles | commands/download.go:52-62 | the names' outcomes in order, then exactly one done, at the end; the names requested are exactly the input names |
| Download.Download | commands/download.go:25-38 | an empty name list takes the listing branch, requests no name and writes the listed assets in order, one outcome each; otherwise it requests exactly the given names in order, one outcome each; either run ends in exactly one done |
| Download.DrainErrors | commands/common.go:10-18 | reports the errors in arrival order and stops at the first absent one |
| Transport.AdminUrl | kit/http_client_test.go:51-61 | `https://<domain>/admin`, followed by `/themes/<id>` exactly when the theme id is not `live` |
| Transport.AdminUrlInjective | kit/http_client_test.go:51-61 | for one shop, two configurations share an admin URL exactly when they name the same theme |
| Transport.AssetPath | kit/http_client_test.go:63-67 | the admin URL followed by `/assets.json` |
| Transport.ThemesPath | kit/http_client_test.go:69-73 | the admin URL followed by `/themes.json` |
| Transport.ThemePath | kit/http_client_test.go:75-79 | the admin URL followed by `/themes/<n>.json` |
| Transport.ThemePathInjective | kit/http_client_test.go:75-79 | two theme endpoints coincide exactly when the ids do |
| Transport.EndpointsDistinct | kit/http_client_test.go:63-79 | the asset, theme-collection and theme endpoints never coincide |
| Transport.Method | kit/http_client_test.go:105-194 | each verb pinned to its method in both directions: Create exactly as POST, Retrieve exactly as GET, Update exactly as PUT, Remove exactly as DELETE |
| Transport.MethodInjective | kit/http_client_test.go:105-153 | no two verbs share a method |
| Transport.VerbOf | kit/http_client_test.go:105-194 | a string names a verb exactly when it is one of the four methods |
| Transport.MethodRoundTrip | kit/http_client_test.go:105-194 | reading the verb back from its method gives the verb, and a method reads back as a verb only when it is that verb's method |
| Transport.RawQuery | kit/http_client_test.go:81-102 | the query starts with `fields=key,attachment,value` and is exactly that with no filters |
| Transport.QueryRoundTrip | kit/http_client_test.go:81-102 | the raw query reads back as the field list followed by the filters, in order |
| Transport.ListQuery | kit/http_client_test.go:84 | no filters give exactly `fields=key,attachment,value` |
| Transport.SingleAssetQuery | kit/http_client_test.go:95 | one key filter gives `fields=key,attachment,value&asset[key]=<file>` |
| Transport.Field | kit/http_client_test.go:109-114 | a member is found exactly when one of that name exists, and the value found is one of them |
| Transport.JsonAsset | kit/http_client_test.go:140-145 | a bare string never decodes as an asset |
| Transport.AssetJsonRoundTrip | kit/http_client_test.go:140-145 | an asset's JSON object decodes back to the same asset |
| Transport.JsonTheme | kit/http_client_test.go:109-114 | a bare string never decodes as a theme |
| Transport.ThemeJsonRoundTrip | kit/http_client_test.go:109-114 | a theme's JSON object decodes back to the same theme |
| Transport.Envelope | kit/http_client_test.go:109-114 | the body is an object whose named member is the wrapped value |
| Transport.AssetQuery | kit/http_client_test.go:81-102 | a single-asset result exactly when the filter names one asset, otherwise a list; the target is the asset endpoint, `?` and the raw query; no body |
| Transport.AssetAction | kit/http_client_test.go:136-153 | sends the asset under `asset` to the asset endpoint with the given verb, expecting an asset back |
| Transport.NewTheme | kit/http_client_test.go:105-122 | POSTs `{"theme": {name, source, role: unpublished}}` to the theme collection, expecting a theme |
| Transport.GetTheme | kit/http_client_test.go:124-134 | GETs the theme's endpoint with no body, expecting a theme |
| Transport.QueryKindFollowsFilter | kit/http_client_test.go:81-102 | an unfiltered GET query expects a list, a key-filtered one a single asset |
| Requests.UserAgent | kit/shopify_request_test.go:19 | the user agent starts with `go/themekit (` and ends with `)` |
| Requests.UserAgentRoundTrip | kit/shopify_request_test.go:19 | the user agent reads back as exactly the platform and version it was built from, with or without a version |
| Requests.HeaderGet | kit/shopify_request_test.go:16-19 | absent names give `""`; a present name gives the value of its first header, no earlier header having that name |
| Requests.StandardHeaders | kit/shopify_request_test.go:16-19 | the access token is the password, both content headers are `application/json`, and the user agent is the one given |
| Requests.ParseUrl | kit/shopify_request_test.go:21-22 | a URL starting with `:` is refused for a missing scheme; any other gets the parser's verdict |
| Requests.ParseError | kit/shopify_request_test.go:21-22 | the error names the URL up to its first `#` and the reason, and carries no `#` unless the reason does |
| Requests.BeforeFragment | kit/shopify_request_test.go:21-22 | the text before the first `#`: a prefix of the URL with no `#`, followed in the URL by `#` when shorter |
| Requests.FragmentLeftOutOfError | kit/shopify_request_test.go:21-22 | for `://#nksd` the error names `://` and not the whole URL |
| Requests.NewShopifyRequest | kit/shopify_request_test.go:12-23 | succeeds exactly when the URL parses, carrying the verb's method, the URL, no body and the standard headers; failure names the URL up to its first `#` |
| Requests.SchemelessTargetRejected | kit/shopify_request_test.go:21-22 | `://#nksd` is refused whatever else the parser accepts |
| Requests.SetBody | kit/shopify_request_test.go:25-31 | the request carries exactly the given text, nothing else changed, no error |
| Requests.SetJsonBody | kit/shopify_request_test.go:33-37 | the request carries the JSON value, nothing else changed, no error |
| Requests.NewHttpClient | kit/http_client_test.go:35-49 | fails exactly when a proxy is set and refused, naming it up to its first `#`; otherwise keeps the configuration and timeout, with a proxying transport exactly when a proxy is set |
| Requests.SchemelessProxyRejected | kit/http_client_test.go:39-42 | a proxy `://abc!21@` fails client construction whatever else the parser accepts |

## Left out

- Goroutines and channels: the `go` launches in `Download`, `logEvent`, and the channel plumbing of the two loops are flattened into a sequential list of outcomes, because their point is concurrency.
- `mergeEvents`: not modelled. Its inner `ok` shadows the outer one (`commands/common.go:23-25`), so its loop never ends once a source closes, and a terminating fan-in would misstate it.
- Event presentation: `basicEvent`, its formatter, the colouring and `AsJSON` are left out. An outcome records only the write target or the notification text.
- `themekit.NotifyError` and the event log are reduced to the `Notify` and `WriteEvent` outcomes.
- Permission bits: `perms.Mode()` is not modelled, and `file.Sync` and `file.Close` have no effect on the map.
- Disk.MkdirAll: requires a non-empty path. Its one caller passes `filepath.Dir` of a path, which is never empty.
- HTTP round trips: TLS, timeouts as behaviour, the `insecure` scheme switch, test servers, response parsing and fixture files are left out. A request is modelled as a record of its target, method, expected result kind and body.
- JSON serialisation: bodies are a JSON tree, not bytes. Map key order and pretty-printing of `.json` asset values (the 19-byte case at `src/shopify/asset_test.go:78`) are not modelled, because that formatting belongs to Go's JSON library.
- Requests.ParseError: the error is spelled `parse <url>: <reason>`; later Go releases quote the URL, and that spelling is not modelled.
- Requests.ParseUrl: only the missing-scheme rule is modelled; every other parser decision is the `reject` parameter.
- Header canonicalisation: header names are compared as written.
- Assets.LoadAsset: the classifier is the `isText` parameter. The key of a loaded asset is taken to be the filename and the missing-file error to be an `open` path error; the loading code is not part of this model.
- Assets.ReadAsset: the text of `ErrAssetIsDir` is not part of this model, so the model uses its own constant; its contracts say only that the error is that constant.
- Assets.Contents: the pretty-printing of `.json` values is not modelled, so for a `.json` key with no attachment its promise of one byte per character departs from the code, which reformats the value (14 characters give 19 bytes at `src/shopify/asset_test.go:78`). No source text fixes which field wins when both are set; attachment-first is the model's choice.
- Assets.WriteIntoExistingOutdir: states success only for a plain key, one with no empty, `.` or `..` segment, as the keys of a theme are; keys that climb out of the outdir are not covered.
- Transport.AssetQuery: Go takes the filters as a `map[string]string`, and with two or more its iteration order is unspecified. The model takes an ordered list, so `Transport.QueryRoundTrip`'s "in order" holds for the list given, not for any order Go would produce. The tests use at most one filter (`kit/http_client_test.go:84, 95`).
- Transport.Method: the code that defines the verb table is not part of this model. The tests assert POST, GET and PUT (`kit/http_client_test.go:107, 126, 138`); no test sends a `Remove`, so its pairing with DELETE follows the verb's meaning.
- ProjectPath.SplitAfter2: an empty separator is not modelled as Go does it (Go cuts after the first character). Its one caller always passes `dir/`, which is never empty.
- `Trace.listCalls` records which branch `Download` took; it is set by the branch, not counted from calls.
- Assets.Bytes: a content character is taken as one byte (its code mod 256). Go's `[]byte(s)` of a character above 255 would UTF-8 encode it.
- Base64.Decode: the failure carries no byte offset, whereas Go's `CorruptInputError` does. Decoding otherwise follows section 4 of RFC 4648 and Go's skipping of `\r` and `\n`.
- `FindAssets` and `loadAssetsFromDirectory` (`src/shopify/asset_test.go:15-41, 92-117`): directory walks whose expected counts depend on a fixture tree, which is not part of this model.
- The atom feed reader: it parses XML with a library, and its code is not part of this model.
- Non-POSIX separators: `/` is the only separator and `filepath.ToSlash` is the identity. `GOOS`, `GOARCH` and the client version are parameters.
- `os.Getwd` is the `cwd` field of the host; `os.Stat`, `os.MkdirAll`, `os.Create` and `File.Write` act on the modelled map only.

=== FILE: asset.dfy ===
/**
 * Theme assets: a root-relative key with content carried either as text
 * (`Value`) or as base64 (`Attachment`), how they are loaded from the
 * project directory, how their bytes are recovered, and how they are
 * written back out.  Whether a file is text or binary is decided by a
 * content-sniffing heuristic that is a parameter here.
 */
module Assets {
  import opened Wrappers
  import opened Strings
  import opened SplitJoinLaws
  import opened FilePath
  import opened Base64
  import opened Disk

  /** One theme file. */
  datatype Asset = Asset(key: string, value: string, attachment: string) {
    /** An asset is worth sending when it carries content in either form. */
    predicate IsValid() {
      value != "" || attachment != ""
    }
  }

  /** Go's zero `Asset{}`. */
  const NoAsset := Asset("", "", "")

  /** Go's `[]byte(s)`: each character of a content string stands for one byte. */
  function Bytes(s: string): seq<uint8> {
    seq(|s|, k requires 0 <= k < |s| => s[k] as int % 256)
  }

  /** Go's `string(b)`. */
  function Text(b: seq<uint8>): string {
    seq(|b|, k requires 0 <= k < |b| => b[k] as char)
  }

  lemma BytesOfText(b: seq<uint8>)
    ensures Bytes(Text(b)) == b
  {
    assert forall k :: 0 <= k < |b| ==> Bytes(Text(b))[k] == b[k];
  }

  /** The notification for an attachment that is not valid base64. */
  function DecodeFailure(key: string, e: DecodeError): (msg: string)
    ensures Contains(msg, "Could not decode")
    ensures Contains(msg, key)
  {
    var head := "Could not decode ";
    var msg := head + key + ". error: " + e.Message();
    assert head <= msg[0..];
    assert key <= msg[|head|..];
    msg
  }

  /**
   * `Asset.contents()`: the raw bytes, from the attachment when one is set
   * and from the value otherwise.
   */
  function Contents(a: Asset): (r: Result<seq<uint8>, string>)
    ensures a.attachment == "" ==> r == Success(Bytes(a.value)) && |r.value| == |a.value|
    ensures a.attachment != "" ==> (r.Success? <==> Decode(a.attachment).Success?)
    ensures a.attachment != "" && r.Success? ==> Decode(a.attachment) == Success(r.value)
    ensures r.Failure? ==> Contains(r.error, "Could not decode") && Contains(r.error, a.key)
  {
    if a.attachment != "" then
      match Decode(a.attachment)
      case Success(data) => Success(data)
      case Failure(e) => Failure(DecodeFailure(a.key, e))
    else Success(Bytes(a.value))
  }

  /** The asset a file's bytes become once classified as text or binary. */
  function FromBytes(key: string, data: seq<uint8>, isText: seq<uint8> -> bool): (a: Asset)
    ensures a.key == key
    ensures a.value == "" || a.attachment == ""
    ensures a.IsValid() <==> |data| > 0
    ensures Contents(a) == Success(data)
  {
    if isText(data) then
      BytesOfText(data);
      Asset(key, Text(data), "")
    else
      RoundTrip(data);
      EncodeEmpty(data);
      Asset(key, "", Encode(data))
  }

  /** An asset together with the error Go returns beside it. */
  datatype Loaded = Loaded(asset: Asset, err: Option<string>)

  /** The exact message `LoadAsset` gives for a directory. */
  const FileIsDirectory := "File is a directory"

  /**
   * `LoadAsset(root, filename)`: read `root/filename` into an asset keyed
   * by `filename`.
   */
  function LoadAsset(fs: Fs, root: string, filename: string, isText: seq<uint8> -> bool): (r: Loaded)
    ensures r.err.None? <==> Lookup(fs, Join2(root, filename)).File?
    ensures Lookup(fs, Join2(root, filename)) == Directory ==> r.err == Some(FileIsDirectory)
    ensures r.err.Some? ==> !r.asset.IsValid()
    ensures Lookup(fs, Join2(root, filename)).File? ==>
      var data := Lookup(fs, Join2(root, filename)).data;
      && (r.asset.IsValid() <==> |data| > 0)
      && Contents(r.asset) == Success(data)
      && (isText(data) ==> r.asset.value == Text(data))
      && (!isText(data) && |data| > 0 ==> r.asset.attachment != "")
  {
    var path := Join2(root, filename);
    match Lookup(fs, path)
    case Missing => Loaded(Asset(filename, "", ""), Some(PathError("open", path, "no such file or directory")))
    case Directory => Loaded(Asset(filename, "", ""), Some(FileIsDirectory))
    case File(data) =>
      EncodeEmpty(data);
      Loaded(FromBytes(filename, data, isText), None)
  }

  /** The text of `ErrAssetIsDir`. */
  const AssetIsDir := "requested asset is a directory"

  /**
   * `ReadAsset(env, input)`: read `directory/input` into an asset keyed by
   * the cleaned input; on any error the asset is the zero value.
   */
  function ReadAsset(fs: Fs, directory: string, input: string, isText: seq<uint8> -> bool): (r: Loaded)
    ensures r.err.None? <==> Lookup(fs, Join2(directory, input)).File?
    ensures r.err.Some? ==> r.asset == NoAsset
    ensures Lookup(fs, Join2(directory, input)) == Missing ==> r.err.Some? && Contains(r.err.value, "no such file")
    ensures Lookup(fs, Join2(directory, input)) == Directory ==> r.err == Some(AssetIsDir)
    ensures Lookup(fs, Join2(directory, input)).File? ==>
      var data := Lookup(fs, Join2(directory, input)).data;
      && r.asset.key == Clean(input)
      && Contents(r.asset) == Success(data)
      && (isText(data) ==> r.asset == Asset(Clean(input), Text(data), ""))
      && (!isText(data) ==> r.asset == Asset(Clean(input), "", Encode(data)))
  {
    var path := Join2(directory, input);
    match Lookup(fs, path)
    case Missing =>
      PathErrorNamesReason("open", path, "no such file or directory");
      assert "no such file" <= "no such file or directory";
      Loaded(NoAsset, Some(PathError("open", path, "no such file or directory")))
    case Directory => Loaded(NoAsset, Some(AssetIsDir))
    case File(data) => Loaded(FromBytes(Clean(input), data, isText), None)
  }

  /**
   * `Asset.Write(outdir)`: check that `outdir` exists, make the parents of
   * `outdir/key`, create or truncate the file, and write `Contents`.
   */
  function Write(a: Asset, outdir: string, fs: Fs, diskFull: bool): (r: Result<Fs, string>)
    ensures Lookup(fs, outdir) == Missing ==> r.Failure? && Contains(r.error, "file or directory")
    ensures Contents(a).Failure? ==> r.Failure?
    ensures r.Success? ==> Contents(a).Success? && Lookup(r.value, Join2(outdir, a.key)) == File(Contents(a).value)
    ensures r.Success? ==> AddsOnlyDirectoriesBesides(fs, r.value, Clean(Join2(outdir, a.key)))
  {
    match Stat(fs, outdir)
    case Failure(e) =>
      NoSuchFileMentionsFile(outdir);
      Failure(e)
    case Success(_) =>
      var target := Join2(outdir, a.key);
      match MkdirAll(fs, Dir(target))
      case Failure(e) => Failure(e)
      case Success(fs1) =>
        match Create(fs1, target)
        case Failure(e) => Failure(e)
        case Success(fs2) =>
          match Contents(a)
          case Failure(e) => Failure(e)
          case Success(data) =>
            var r := WriteFile(fs2, target, data, diskFull);
            assert r.Success? ==> AddsOnlyDirectoriesBesides(fs, r.value, Clean(target)) by {
              if r.Success? {
                AddsThenReplaces(fs, fs1, fs2, r.value, target);
              }
            }
            r
  }

  /** Helper: `stat`'s missing-path error mentions `file or directory`. */
  lemma NoSuchFileMentionsFile(p: string)
    ensures Contains(PathError("stat", p, "no such file or directory"), "file or directory")
  {
    assert "no such file or directory" == "no such " + "file or directory";
    PathErrorNamesTail("stat", p, "no such ", "file or directory");
  }

  /** Text content comes back byte for byte. */
  lemma TextRoundTrip(key: string, data: seq<uint8>)
    ensures Contents(Asset(key, Text(data), "")) == Success(data)
  {
    BytesOfText(data);
  }

  /** Binary content survives encoding into an attachment and `Contents`. */
  lemma AttachmentRoundTrip(key: string, data: seq<uint8>)
    ensures Contents(Asset(key, "", Encode(data))) == Success(data)
  {
    RoundTrip(data);
    EncodeEmpty(data);
  }

  /** `"this is content"` as a value gives its 15 bytes. */
  lemma ValueOnlyContents(key: string, value: string)
    requires value == "this is content"
    ensures Contents(Asset(key, value, "")) == Success(Bytes(value))
    ensures |Contents(Asset(key, value, "")).value| == 15
  {
  }

  /** `"this is bad content"` is not base64: 19 characters cannot form quanta. */
  lemma BadAttachmentContents(key: string, attachment: string)
    requires attachment == "this is bad content"
    ensures Contents(Asset(key, "", attachment)).Failure?
    ensures Contains(Contents(Asset(key, "", attachment)).error, "Could not decode")
  {
    assert |attachment| == 19;
    assert forall k :: 0 <= k < |attachment| ==> attachment[k] != '\r' && attachment[k] != '\n';
    RaggedInputRejected(attachment);
  }

  /** The base64 of `"this is good content"` gives back its 20 bytes. */
  lemma GoodAttachmentContents(key: string, text: string)
    requires text == "this is good content"
    ensures Contents(Asset(key, "", Encode(Bytes(text)))) == Success(Bytes(text))
    ensures |Bytes(text)| == 20
  {
    AttachmentRoundTrip(key, Bytes(text));
  }

  /** `./q` and `q` read the same file into the same asset. */
  lemma ReadAssetDotSpelling(fs: Fs, directory: string, q: string, isText: seq<uint8> -> bool)
    requires q != "" && q[0] != '/'
    ensures ReadAsset(fs, directory, "./" + q, isText) == ReadAsset(fs, directory, q, isText)
  {
    Join2DotPrefix(directory, q);
    CleanDotPrefix(q);
  }

  /** `assets/application.js` holding text reads as that key with the text as value, with or without `./`. */
  lemma ReadApplicationJs(fs: Fs, directory: string, input: string, isText: seq<uint8> -> bool)
    requires input == "assets/application.js"
    requires Lookup(fs, Join2(directory, input)).File? && isText(Lookup(fs, Join2(directory, input)).data)
    ensures var data := Lookup(fs, Join2(directory, input)).data;
      && ReadAsset(fs, directory, input, isText) == Loaded(Asset(input, Text(data), ""), None)
      && ReadAsset(fs, directory, "./" + input, isText) == Loaded(Asset(input, Text(data), ""), None)
  {
    ApplicationJsClean(input);
    ReadAssetDotSpelling(fs, directory, input, isText);
  }

  /** Helper: `assets/application.js` is already clean. */
  lemma ApplicationJsClean(p: string)
    requires p == "assets/application.js"
    ensures Clean(p) == p
  {
    var a, b := "assets", "application.js";
    assert p == a + "/" + b;
    CleanOfTwo(a, b);
  }

  /** What `Write` puts on disk reads back as an asset with the same bytes. */
  lemma WriteThenRead(a: Asset, outdir: string, fs: Fs, diskFull: bool, isText: seq<uint8> -> bool)
    requires Write(a, outdir, fs, diskFull).Success?
    ensures var back := ReadAsset(Write(a, outdir, fs, diskFull).value, outdir, a.key, isText);
      && back.err.None?
      && back.asset.key == Clean(a.key)
      && Contents(back.asset) == Contents(a)
  {
  }

  /**
   * Writing an asset with a plain key under an existing directory succeeds
   * when no file stands in the way of the target's directory and the target
   * is not itself a directory: any missing parents are made, an existing
   * file is overwritten, and the target then holds the asset's contents.
   */
  lemma WriteIntoExistingOutdir(a: Asset, outdir: string, fs: Fs)
    requires outdir != "" && Lookup(fs, outdir) == Directory
    requires Plain(a.key)
    requires NoFileOnPath(fs, Dir(Join2(outdir, a.key)))
    requires Lookup(fs, Join2(outdir, a.key)) != Directory
    requires Contents(a).Success?
    ensures Write(a, outdir, fs, false).Success?
    ensures Lookup(Write(a, outdir, fs, false).value, Join2(outdir, a.key)) == File(Contents(a).value)
  {
    var r := Rooted(outdir);
    var all := Segments(outdir) + Split(a.key, '/');
    Join2Plain(outdir, a.key);
    var target := Join2(outdir, a.key);
    DirOfRender(all, r);
    var init := all[..|all| - 1];
    SegmentsOfRender(init, r);
    CleanOfRender(all, r);
    TargetNotAncestor(all, init, r, target);
    MkdirAllTouchesOnlyPrefixes(fs, init, r, target);
    WriteSucceedsWhen(a, outdir, fs);
  }

  /** Helper: a clean path is none of the ancestors of its own directory. */
  lemma TargetNotAncestor(all: seq<string>, init: seq<string>, rooted: bool, target: string)
    requires Canonical(all, rooted) && |all| > 0 && Clean(target) == Render(all, rooted)
    requires init == all[..|all| - 1]
    ensures Canonical(init, rooted)
    ensures forall k :: 0 <= k <= |init| ==> Clean(target) != Prefix(init, rooted, k)
  {
    CanonicalPrefix(all, rooted, |all| - 1);
    forall k | 0 <= k <= |init|
      ensures Clean(target) != Prefix(init, rooted, k)
    {
      assert init[..k] == all[..k];
      CanonicalPrefix(all, rooted, k);
      DistinctRenders(all[..k], all, rooted);
    }
  }

  /** Helper: canonical segment lists of different lengths are spelled differently. */
  lemma DistinctRenders(xs: seq<string>, ys: seq<string>, rooted: bool)
    requires Canonical(xs, rooted) && Canonical(ys, rooted) && |xs| != |ys|
    ensures Render(xs, rooted) != Render(ys, rooted)
  {
    SegmentsOfRender(xs, rooted);
    SegmentsOfRender(ys, rooted);
  }

  /** Helper: `Write` succeeds once each of its steps does. */
  lemma WriteSucceedsWhen(a: Asset, outdir: string, fs: Fs)
    requires Lookup(fs, outdir) == Directory && Contents(a).Success?
    requires var target := Join2(outdir, a.key);
      && Dir(target) != ""
      && NoFileOnPath(fs, Dir(target))
      && Lookup(MkdirAll(fs, Dir(target)).value, target) != Directory
    ensures Write(a, outdir, fs, false).Success?
    ensures Lookup(Write(a, outdir, fs, false).value, Join2(outdir, a.key)) == File(Contents(a).value)
  {
  }
}

=== FILE: base64.dfy ===
/**
 * Base64 with the standard alphabet and `=` padding (section 4 of
 * RFC 4648), as Go's `base64.StdEncoding` encodes and decodes it: the
 * decoder skips `\r` and `\n`, demands complete four-character quanta,
 * accepts padding only in the final quantum, and ignores any non-zero
 * bits left over in a padded quantum.
 */
module Base64 {
  import opened Wrappers

  /** An octet, as Go's `byte`. */
  type uint8 = x: int | 0 <= x < 256

  /** A six-bit alphabet index. */
  type Sextet = x: int | 0 <= x < 64

  /** The alphabet of Table 1 of RFC 4648: A-Z, a-z, 0-9, '+', '/'. */
  function IndexChar(i: Sextet): (c: char)
  {
    if i < 26 then ('A' as int + i) as char
    else if i < 52 then ('a' as int + (i - 26)) as char
    else if i < 62 then ('0' as int + (i - 52)) as char
    else if i == 62 then '+'
    else '/'
  }

  /** The alphabet index of `c`, or None when `c` is not in the alphabet. */
  function CharIndex(c: char): (r: Option<Sextet>)
  {
    if 'A' <= c <= 'Z' then Some(c as int - 'A' as int)
    else if 'a' <= c <= 'z' then Some(c as int - 'a' as int + 26)
    else if '0' <= c <= '9' then Some(c as int - '0' as int + 52)
    else if c == '+' then Some(62)
    else if c == '/' then Some(63)
    else None
  }

  predicate InAlphabet(c: char) {
    CharIndex(c).Some?
  }

  /** The alphabet is a bijection between sextets and its 64 characters. */
  lemma AlphabetBijection(i: Sextet, c: char)
    ensures CharIndex(IndexChar(i)) == Some(i)
    ensures CharIndex(c) == Some(i) ==> IndexChar(i) == c
  {
    if i < 26 {
    } else if i < 52 {
    } else if i < 62 {
    }
  }

  /** Three bytes as four characters. */
  function EncodeBlock(b0: uint8, b1: uint8, b2: uint8): string {
    [ IndexChar(b0 / 4),
      IndexChar(b0 % 4 * 16 + b1 / 16),
      IndexChar(b1 % 16 * 4 + b2 / 64),
      IndexChar(b2 % 64) ]
  }

  /** Encoding: each three bytes become four characters; a final one or two bytes are padded with `=`. */
  function Encode(data: seq<uint8>): (s: string)
    ensures |s| == 4 * ((|data| + 2) / 3)
    decreases |data|
  {
    if |data| == 0 then ""
    else if |data| == 1 then EncodeBlock(data[0], 0, 0)[..2] + "=="
    else if |data| == 2 then EncodeBlock(data[0], data[1], 0)[..3] + "="
    else
      LengthStep(|data|);
      EncodeBlock(data[0], data[1], data[2]) + Encode(data[3..])
  }

  /** Helper: one more full block adds four characters to the encoded length. */
  lemma LengthStep(n: int)
    requires n >= 3
    ensures 4 + 4 * ((n - 3 + 2) / 3) == 4 * ((n + 2) / 3)
  {
    assert (n + 2) / 3 == (n - 1) / 3 + 1;
  }

  /** Four sextets as three bytes. */
  function DecodeBlock(i0: Sextet, i1: Sextet, i2: Sextet, i3: Sextet): seq<uint8> {
    [ i0 * 4 + i1 / 16,
      i1 % 16 * 16 + i2 / 4,
      i2 % 4 * 64 + i3 ]
  }

  /**
   * One four-character quantum; padding (`xx==` or `xxx=`) is accepted only
   * when the quantum is the last.
   */
  function DecodeQuantum(q: string, last: bool): (r: Option<seq<uint8>>)
    requires |q| == 4
    ensures r.Some? ==> 1 <= |r.value| <= 3
    ensures r.Some? && |r.value| < 3 ==> last
  {
    var c0, c1, c2, c3 := CharIndex(q[0]), CharIndex(q[1]), CharIndex(q[2]), CharIndex(q[3]);
    if c0.Some? && c1.Some? && c2.Some? && c3.Some? then
      Some(DecodeBlock(c0.value, c1.value, c2.value, c3.value))
    else if last && c0.Some? && c1.Some? && q[2] == '=' && q[3] == '=' then
      Some(DecodeBlock(c0.value, c1.value, 0, 0)[..1])
    else if last && c0.Some? && c1.Some? && c2.Some? && q[3] == '=' then
      Some(DecodeBlock(c0.value, c1.value, c2.value, 0)[..2])
    else None
  }

  /** The decoder's one failure: the input is not well-formed base64. */
  datatype DecodeError = CorruptInput {
    function Message(): string {
      "illegal base64 data"
    }
  }

  /** Decoding after line breaks have been removed. */
  function DecodeQuanta(t: string): (r: Result<seq<uint8>, DecodeError>)
    ensures r.Success? ==> |t| % 4 == 0
    ensures r.Success? ==> |t| / 4 * 3 - 2 <= |r.value| <= |t| / 4 * 3
    decreases |t|
  {
    if |t| == 0 then Success([])
    else if |t| < 4 then Failure(CorruptInput)
    else
      var head := DecodeQuantum(t[..4], |t| == 4);
      if head.None? then Failure(CorruptInput)
      else
        var tail := DecodeQuanta(t[4..]);
        if tail.Failure? then tail
        else
          MultipleOfFour(|t|);
          Success(head.value + tail.value)
  }

  /** Helper: four more than a multiple of four is one too. */
  lemma MultipleOfFour(n: int)
    requires n >= 4 && (n - 4) % 4 == 0
    ensures n % 4 == 0
  {
  }

  /** `s` without its `\r` and `\n` characters. */
  function StripLineBreaks(s: string): (t: string)
    ensures |t| <= |s|
    ensures (forall k :: 0 <= k < |s| ==> s[k] != '\r' && s[k] != '\n') ==> t == s
    ensures forall k :: 0 <= k < |t| ==> t[k] != '\r' && t[k] != '\n'
  {
    if |s| == 0 then ""
    else if s[0] == '\r' || s[0] == '\n' then StripLineBreaks(s[1..])
    else [s[0]] + StripLineBreaks(s[1..])
  }

  /** Removing line breaks works piece by piece: the pieces' results, in order. */
  lemma {:induction false} StripConcat(a: string, b: string)
    ensures StripLineBreaks(a + b) == StripLineBreaks(a) + StripLineBreaks(b)
    decreases |a|
  {
    if |a| == 0 {
      assert a + b == b;
    } else {
      assert (a + b)[0] == a[0];
      assert (a + b)[1..] == a[1..] + b;
      StripConcat(a[1..], b);
    }
  }

  /** A line break on its own strips to nothing. */
  lemma StripBreak(brk: string)
    requires brk == "\n" || brk == "\r" || brk == "\r\n"
    ensures StripLineBreaks(brk) == ""
  {
    if brk == "\r\n" {
      assert brk[1..] == "\n";
    }
  }

  /** Helper: a line break between two pieces strips away. */
  lemma StripAroundBreak(a: string, brk: string, b: string)
    requires brk == "\n" || brk == "\r" || brk == "\r\n"
    ensures StripLineBreaks(a + brk + b) == StripLineBreaks(a + b)
  {
    StripConcat(a + brk, b);
    StripConcat(a, brk);
    StripConcat(a, b);
    StripBreak(brk);
    assert StripLineBreaks(a) + "" == StripLineBreaks(a);
  }

  /** A line break anywhere in the input changes nothing about what it decodes to. */
  lemma DecodeIgnoresLineBreak(a: string, brk: string, b: string)
    requires brk == "\n" || brk == "\r" || brk == "\r\n"
    ensures Decode(a + brk + b) == Decode(a + b)
  {
    StripAroundBreak(a, brk, b);
  }

  /**
   * `base64.StdEncoding.DecodeString`: line breaks are ignored; what is
   * left must be whole quanta, each giving three bytes except that padding
   * on the last one drops one or two.
   */
  function Decode(s: string): (r: Result<seq<uint8>, DecodeError>)
    ensures r.Success? ==> |StripLineBreaks(s)| % 4 == 0
    ensures r.Success? ==>
      |StripLineBreaks(s)| / 4 * 3 - 2 <= |r.value| <= |StripLineBreaks(s)| / 4 * 3
  {
    DecodeQuanta(StripLineBreaks(s))
  }

  /** Every encoded character is in the alphabet or is padding. */
  lemma {:induction false} EncodeAlphabet(data: seq<uint8>)
    ensures forall k :: 0 <= k < |Encode(data)| ==> InAlphabet(Encode(data)[k]) || Encode(data)[k] == '='
    decreases |data|
  {
    forall i: Sextet ensures InAlphabet(IndexChar(i)) {
      AlphabetBijection(i, 'A');
    }
    if |data| >= 3 {
      EncodeAlphabet(data[3..]);
    }
  }

  /** Bit-level round trip of one full block. */
  lemma BlockRoundTrip(b0: uint8, b1: uint8, b2: uint8)
    ensures DecodeBlock(b0 / 4, b0 % 4 * 16 + b1 / 16, b1 % 16 * 4 + b2 / 64, b2 % 64) == [b0, b1, b2]
  {
  }

  /** A final single byte, padded `xx==`, decodes back. */
  lemma OneByteRoundTrip(b0: uint8)
    ensures DecodeQuantum(Encode([b0]), true) == Some([b0])
  {
    var i0, i1: Sextet := b0 / 4, b0 % 4 * 16;
    var q := Encode([b0]);
    assert q == [IndexChar(i0), IndexChar(i1), '=', '='];
    AlphabetBijection(i0, 'A');
    AlphabetBijection(i1, 'A');
    assert CharIndex('=') == None;
    assert DecodeQuantum(q, true) == Some(DecodeBlock(i0, i1, 0, 0)[..1]);
    assert i1 / 16 == b0 % 4;
    assert DecodeBlock(i0, i1, 0, 0)[0] == b0;
    assert DecodeBlock(i0, i1, 0, 0)[..1] == [b0];
  }

  /** A final pair of bytes, padded `xxx=`, decodes back. */
  lemma TwoByteRoundTrip(b0: uint8, b1: uint8)
    ensures DecodeQuantum(Encode([b0, b1]), true) == Some([b0, b1])
  {
    var i0, i1, i2: Sextet := b0 / 4, b0 % 4 * 16 + b1 / 16, b1 % 16 * 4;
    var q := Encode([b0, b1]);
    assert q == [IndexChar(i0), IndexChar(i1), IndexChar(i2), '='];
    AlphabetBijection(i0, 'A');
    AlphabetBijection(i1, 'A');
    AlphabetBijection(i2, 'A');
    assert CharIndex('=') == None;
    assert DecodeQuantum(q, true) == Some(DecodeBlock(i0, i1, i2, 0)[..2]);
    assert i1 / 16 == b0 % 4 && i1 % 16 == b1 / 16 && i2 / 4 == b1 % 16;
    var d := DecodeBlock(i0, i1, i2, 0);
    assert d[0] == b0 && d[1] == b1;
    assert d[..2] == [b0, b1];
  }

  /** A full block decodes back whether or not it is the last quantum. */
  lemma FullBlockRoundTrip(b0: uint8, b1: uint8, b2: uint8, last: bool)
    ensures DecodeQuantum(EncodeBlock(b0, b1, b2), last) == Some([b0, b1, b2])
  {
    var i0, i1, i2, i3: Sextet := b0 / 4, b0 % 4 * 16 + b1 / 16, b1 % 16 * 4 + b2 / 64, b2 % 64;
    var q := EncodeBlock(b0, b1, b2);
    assert q == [IndexChar(i0), IndexChar(i1), IndexChar(i2), IndexChar(i3)];
    AlphabetBijection(i0, 'A');
    AlphabetBijection(i1, 'A');
    AlphabetBijection(i2, 'A');
    AlphabetBijection(i3, 'A');
    BlockRoundTrip(b0, b1, b2);
    assert DecodeQuantum(q, last) == Some(DecodeBlock(i0, i1, i2, i3));
  }

  /** A text of one quantum decodes as that quantum, taken as the last. */
  lemma SingleQuantum(q: string)
    requires |q| == 4
    ensures DecodeQuantum(q, true).Some? ==> DecodeQuanta(q) == Success(DecodeQuantum(q, true).value)
  {
    assert q[..4] == q;
    assert DecodeQuanta(q[4..]) == Success([]);
    if DecodeQuantum(q, true).Some? {
      var v := DecodeQuantum(q, true).value;
      assert v + [] == v;
    }
  }

  /** A quantum followed by more text decodes as the quantum then the rest. */
  lemma LeadingQuantum(q: string, rest: string, bytes: seq<uint8>, tail: seq<uint8>)
    requires |q| == 4
    requires DecodeQuantum(q, |rest| == 0) == Some(bytes)
    requires DecodeQuanta(rest) == Success(tail)
    ensures DecodeQuanta(q + rest) == Success(bytes + tail)
  {
    var t := q + rest;
    assert t[..4] == q;
    assert t[4..] == rest;
  }

  /** Encoded text is decoded back to the original bytes, quantum by quantum. */
  lemma {:induction false} QuantaRoundTrip(data: seq<uint8>)
    ensures DecodeQuanta(Encode(data)) == Success(data)
    decreases |data|
  {
    if |data| == 1 {
      ShortRoundTrip(data);
    } else if |data| == 2 {
      ShortRoundTrip(data);
    } else if |data| >= 3 {
      var rest := Encode(data[3..]);
      QuantaRoundTrip(data[3..]);
      BlockThenRest(data, rest);
    }
  }

  /** Helper: one or two bytes make a single padded quantum. */
  lemma ShortRoundTrip(data: seq<uint8>)
    requires |data| == 1 || |data| == 2
    ensures DecodeQuanta(Encode(data)) == Success(data)
  {
    if |data| == 1 {
      assert data == [data[0]];
      OneByteRoundTrip(data[0]);
    } else {
      assert data == [data[0], data[1]];
      TwoByteRoundTrip(data[0], data[1]);
    }
    SingleQuantum(Encode(data));
  }

  /** Helper: a full block in front of an encoded remainder that decodes back. */
  lemma BlockThenRest(data: seq<uint8>, rest: string)
    requires |data| >= 3 && rest == Encode(data[3..])
    requires DecodeQuanta(rest) == Success(data[3..])
    ensures DecodeQuanta(Encode(data)) == Success(data)
  {
    var head := [data[0], data[1], data[2]];
    var block := EncodeBlock(data[0], data[1], data[2]);
    EncodeFullBlock(data);
    FullBlockRoundTrip(data[0], data[1], data[2], |rest| == 0);
    LeadingQuantum(block, rest, head, data[3..]);
    assert head + data[3..] == data;
  }

  /** Helper: three or more bytes encode as a full block followed by the rest. */
  lemma EncodeFullBlock(data: seq<uint8>)
    requires |data| >= 3
    ensures Encode(data) == EncodeBlock(data[0], data[1], data[2]) + Encode(data[3..])
  {
  }

  /** Encoded text holds no line breaks. */
  lemma EncodeHasNoLineBreaks(data: seq<uint8>)
    ensures StripLineBreaks(Encode(data)) == Encode(data)
  {
    var e := Encode(data);
    EncodeAlphabet(data);
    forall k | 0 <= k < |e|
      ensures e[k] != '\r' && e[k] != '\n'
    {
    }
  }

  /** The round-trip law: decoding an encoding gives back the bytes exactly. */
  lemma RoundTrip(data: seq<uint8>)
    ensures Decode(Encode(data)) == Success(data)
  {
    EncodeHasNoLineBreaks(data);
    QuantaRoundTrip(data);
  }

  /** Only the empty byte sequence encodes to the empty text. */
  lemma EncodeEmpty(data: seq<uint8>)
    ensures Encode(data) == "" <==> data == []
  {
  }

  /**
   * Text without line breaks whose length is not a multiple of four is
   * rejected; `this is bad content` (19 characters) is one.
   */
  lemma RaggedInputRejected(s: string)
    requires forall k :: 0 <= k < |s| ==> s[k] != '\r' && s[k] != '\n'
    requires |s| % 4 != 0
    ensures Decode(s).Failure?
  {
  }
}

=== FILE: disk.dfy ===
/**
 * The part of the operating system's filesystem the sync engine touches,
 * as a value: a map from cleaned paths to nodes.  `os.Stat`,
 * `os.MkdirAll`, `os.Create` and `File.Write` become total functions that
 * return the new map or the error text Go would report.  Permission bits
 * are not modelled; a full disk is a flag.
 */
module Disk {
  import opened Wrappers
  import opened Strings
  import opened FilePath
  import opened Base64

  /** What a path names. */
  datatype Node = Missing | Directory | File(data: seq<uint8>)

  /**
   * The filesystem, keyed by cleaned path; `/` and `.` are always
   * directories and the empty path names nothing.
   */
  type Fs = map<string, Node>

  function Lookup(fs: Fs, p: string): Node {
    var c := Clean(p);
    if p == "" then Missing
    else if c == "/" || c == "." then Directory
    else if c in fs then fs[c]
    else Missing
  }

  /** The error text of a failed system call on `path`. */
  function PathError(op: string, path: string, reason: string): string {
    op + " " + path + ": " + reason
  }

  lemma PathErrorNamesReason(op: string, path: string, reason: string)
    ensures Contains(PathError(op, path, reason), reason)
  {
    assert PathError(op, path, reason) == (op + " " + path + ": ") + reason;
    ContainsSuffix(op + " " + path + ": ", reason);
  }

  /** The error names the end of its reason too. */
  lemma PathErrorNamesTail(op: string, path: string, head: string, tail: string)
    ensures Contains(PathError(op, path, head + tail), tail)
  {
    assert PathError(op, path, head + tail) == (op + " " + path + ": " + head) + tail;
    ContainsSuffix(op + " " + path + ": " + head, tail);
  }

  /** `os.Stat`: the node at `p`, or an error when there is none. */
  function Stat(fs: Fs, p: string): (r: Result<Node, string>)
    ensures r.Success? <==> Lookup(fs, p) != Missing
    ensures r.Success? ==> r.value == Lookup(fs, p)
    ensures r.Failure? ==> r.error == PathError("stat", p, "no such file or directory")
    ensures r.Failure? ==> Contains(r.error, "no such file or directory")
  {
    match Lookup(fs, p)
    case Missing =>
      PathErrorNamesReason("stat", p, "no such file or directory");
      Failure(PathError("stat", p, "no such file or directory"))
    case n => Success(n)
  }

  /** Writing node `n` at cleaned path `c` changes exactly the paths that clean to `c`. */
  lemma LookupUpdate(fs: Fs, c: string, n: Node, q: string)
    requires Clean(c) == c && c != "/" && c != "."
    ensures Clean(q) == c ==> Lookup(fs[c := n], q) == n
    ensures Clean(q) != c ==> Lookup(fs[c := n], q) == Lookup(fs, q)
  {
  }

  /** Writing node `n` at a path that is neither `/` nor `.` changes that path and nothing else. */
  lemma UpdateAt(fs: Fs, p: string, n: Node)
    requires p != "" && Lookup(fs, p) != Directory
    ensures Lookup(fs[Clean(p) := n], p) == n
    ensures forall q :: Clean(q) != Clean(p) ==> Lookup(fs[Clean(p) := n], q) == Lookup(fs, q)
  {
    CleanIdempotent(p);
    forall q
      ensures Clean(q) != Clean(p) ==> Lookup(fs[Clean(p) := n], q) == Lookup(fs, q)
    {
      LookupUpdate(fs, Clean(p), n, q);
    }
    LookupUpdate(fs, Clean(p), n, p);
  }

  /** `fs'` differs from `fs` only by directories added where nothing was. */
  ghost predicate AddsOnlyDirectories(fs: Fs, fs': Fs) {
    forall q :: Lookup(fs', q) == Lookup(fs, q) || (Lookup(fs, q) == Missing && Lookup(fs', q) == Directory)
  }

  /** As `AddsOnlyDirectories`, for every path except those cleaning to `c`. */
  ghost predicate AddsOnlyDirectoriesBesides(fs: Fs, fs': Fs, c: string) {
    forall q :: Clean(q) != c ==> Lookup(fs', q) == Lookup(fs, q) || (Lookup(fs, q) == Missing && Lookup(fs', q) == Directory)
  }

  /**
   * Adding directories and then replacing what is at `p` twice adds only
   * directories anywhere else.
   */
  lemma AddsThenReplaces(fs: Fs, fs1: Fs, fs2: Fs, fs3: Fs, p: string)
    requires AddsOnlyDirectories(fs, fs1)
    requires forall q :: Clean(q) != Clean(p) ==> Lookup(fs2, q) == Lookup(fs1, q)
    requires forall q :: Clean(q) != Clean(p) ==> Lookup(fs3, q) == Lookup(fs2, q)
    ensures AddsOnlyDirectoriesBesides(fs, fs3, Clean(p))
  {
  }

  /** The path of the first `k` canonical segments. */
  function Prefix(segs: seq<string>, rooted: bool, k: nat): string
    requires k <= |segs|
  {
    Render(segs[..k], rooted)
  }

  /**
   * `os.MkdirAll` over canonical segments: succeed at an existing
   * directory, fail at a file, otherwise make the parent and then this one.
   */
  function MkdirAllSegments(fs: Fs, segs: seq<string>, rooted: bool): (r: Result<Fs, string>)
    requires Canonical(segs, rooted)
    ensures r.Success? ==> Lookup(r.value, Render(segs, rooted)) == Directory
    decreases |segs|
  {
    var path := Render(segs, rooted);
    CleanOfRender(segs, rooted);
    match Lookup(fs, path)
    case Directory => Success(fs)
    case File(_) => Failure(PathError("mkdir", path, "not a directory"))
    case Missing =>
      if |segs| == 0 then Success(fs)
      else
        match MkdirAllSegments(fs, segs[..|segs| - 1], rooted)
        case Failure(e) => Failure(e)
        case Success(fs1) => Success(fs1[path := Directory])
  }

  /** MkdirAll only adds directories, and only where nothing was. */
  lemma {:induction false} MkdirAllAddsOnlyDirectories(fs: Fs, segs: seq<string>, rooted: bool)
    requires Canonical(segs, rooted)
    ensures MkdirAllSegments(fs, segs, rooted).Success? ==> AddsOnlyDirectories(fs, MkdirAllSegments(fs, segs, rooted).value)
    decreases |segs|
  {
    var path := Render(segs, rooted);
    CleanOfRender(segs, rooted);
    if Lookup(fs, path) == Missing && |segs| > 0 {
      var parent := segs[..|segs| - 1];
      MkdirAllAddsOnlyDirectories(fs, parent, rooted);
      var r1 := MkdirAllSegments(fs, parent, rooted);
      if r1.Success? {
        var fs1 := r1.value;
        var fs2 := fs1[path := Directory];
        assert MkdirAllSegments(fs, segs, rooted) == Success(fs2);
        forall q
          ensures Lookup(fs2, q) == Lookup(fs, q) || (Lookup(fs, q) == Missing && Lookup(fs2, q) == Directory)
        {
          LookupUpdate(fs1, path, Directory, q);
          if Clean(q) == path {
            assert Lookup(fs, q) == Lookup(fs, path);
          } else {
            assert Lookup(fs1, q) == Lookup(fs, q) || (Lookup(fs, q) == Missing && Lookup(fs1, q) == Directory);
          }
        }
      }
    }
  }

  /** MkdirAll fails only when the path or one of its ancestors is a file. */
  lemma {:induction false} MkdirAllFailsAtFile(fs: Fs, segs: seq<string>, rooted: bool)
    requires Canonical(segs, rooted)
    ensures MkdirAllSegments(fs, segs, rooted).Failure? ==> exists k :: 0 <= k <= |segs| && Lookup(fs, Prefix(segs, rooted, k)).File?
    decreases |segs|
  {
    var path := Render(segs, rooted);
    if Lookup(fs, path).File? {
      assert segs[..|segs|] == segs;
      assert Lookup(fs, Prefix(segs, rooted, |segs|)).File?;
    } else if Lookup(fs, path) == Missing && |segs| > 0 {
      var parent := segs[..|segs| - 1];
      MkdirAllFailsAtFile(fs, parent, rooted);
      if MkdirAllSegments(fs, parent, rooted).Failure? {
        var k :| 0 <= k <= |parent| && Lookup(fs, Prefix(parent, rooted, k)).File?;
        assert parent[..k] == segs[..k];
        assert Lookup(fs, Prefix(segs, rooted, k)).File?;
      }
    }
  }

  /** MkdirAll touches nothing but the path and its ancestors. */
  lemma {:induction false} MkdirAllTouchesOnlyPrefixes(fs: Fs, segs: seq<string>, rooted: bool, q: string)
    requires Canonical(segs, rooted)
    requires forall k :: 0 <= k <= |segs| ==> Clean(q) != Prefix(segs, rooted, k)
    ensures MkdirAllSegments(fs, segs, rooted).Success? ==> Lookup(MkdirAllSegments(fs, segs, rooted).value, q) == Lookup(fs, q)
    decreases |segs|
  {
    var path := Render(segs, rooted);
    CleanOfRender(segs, rooted);
    if Lookup(fs, path) == Missing && |segs| > 0 {
      var parent := segs[..|segs| - 1];
      forall k | 0 <= k <= |parent|
        ensures Prefix(parent, rooted, k) == Prefix(segs, rooted, k)
      {
        assert parent[..k] == segs[..k];
      }
      MkdirAllTouchesOnlyPrefixes(fs, parent, rooted, q);
      var r1 := MkdirAllSegments(fs, parent, rooted);
      if r1.Success? {
        assert segs[..|segs|] == segs;
        assert Prefix(segs, rooted, |segs|) == path;
        LookupUpdate(r1.value, path, Directory, q);
      }
    }
  }

  /** Whether neither `p` nor any of its ancestors is a file. */
  predicate NoFileOnPath(fs: Fs, p: string) {
    forall k :: 0 <= k <= |Segments(p)| ==> !Lookup(fs, Prefix(Segments(p), Rooted(p), k)).File?
  }

  /** `os.MkdirAll(p)`: `p` and every missing ancestor become directories. */
  function MkdirAll(fs: Fs, p: string): (r: Result<Fs, string>)
    requires p != ""
    ensures r.Success? ==> Lookup(r.value, p) == Directory
    ensures r.Success? ==> AddsOnlyDirectories(fs, r.value)
    ensures Lookup(fs, p).File? ==> r.Failure?
    ensures NoFileOnPath(fs, p) ==> r.Success?
    ensures (forall q :: !Lookup(fs, q).File?) ==> r.Success?
  {
    CleanIdempotent(p);
    MkdirAllAddsOnlyDirectories(fs, Segments(p), Rooted(p));
    MkdirAllFailsAtFile(fs, Segments(p), Rooted(p));
    MkdirAllSegments(fs, Segments(p), Rooted(p))
  }

  /**
   * `os.Create(p)`: an empty file at `p`, truncating any file already
   * there; fails on a directory and when the parent is not a directory.
   */
  function Create(fs: Fs, p: string): (r: Result<Fs, string>)
    ensures r.Success? <==> p != "" && Lookup(fs, p) != Directory && Lookup(fs, Dir(p)) == Directory
    ensures r.Success? ==> Lookup(r.value, p) == File([])
    ensures r.Success? ==> forall q :: Clean(q) != Clean(p) ==> Lookup(r.value, q) == Lookup(fs, q)
  {
    if p == "" then Failure(PathError("open", p, "no such file or directory"))
    else if Lookup(fs, p) == Directory then Failure(PathError("open", p, "is a directory"))
    else match Lookup(fs, Dir(p))
      case Missing => Failure(PathError("open", p, "no such file or directory"))
      case File(_) => Failure(PathError("open", p, "not a directory"))
      case Directory =>
        UpdateAt(fs, p, File([]));
        Success(fs[Clean(p) := File([])])
  }

  /** `File.Write` of `data` to the freshly created file at `p`; a full disk refuses any byte. */
  function WriteFile(fs: Fs, p: string, data: seq<uint8>, diskFull: bool): (r: Result<Fs, string>)
    requires Lookup(fs, p) == File([])
    ensures r.Success? <==> !diskFull || |data| == 0
    ensures r.Success? ==> Lookup(r.value, p) == File(data)
    ensures r.Success? ==> forall q :: Clean(q) != Clean(p) ==> Lookup(r.value, q) == Lookup(fs, q)
  {
    if diskFull && |data| > 0 then Failure(PathError("write", p, "no space left on device"))
    else
      UpdateAt(fs, p, File(data));
      Success(fs[Clean(p) := File(data)])
  }
}

=== FILE: download.dfy ===
/**
 * The `download` command as a sequential fold: each asset becomes exactly
 * one outcome (a write event or a notification) while the filesystem map
 * is threaded through, and a run ends with a single `Done`.  Goroutines
 * and channels are flattened into the order in which the consumer sees
 * their values.
 */
module Download {
  import opened Wrappers
  import opened Strings
  import opened FilePath
  import opened Base64
  import opened Disk
  import opened Assets

  /** What one step reports: a successful write, an error notice, or the end of the run. */
  datatype Outcome = WriteEvent(target: string) | Notify(message: string) | Done

  /** The process state a write sees: the working directory (or the error getting it), the disk. */
  datatype Host = Host(cwd: Result<string, string>, fs: Fs, diskFull: bool)

  /** One write's report and the disk afterwards. */
  datatype Step = Step(outcome: Outcome, fs: Fs)

  /** A run's reports in order, the disk at its end, and the names it asked the remote theme for. */
  datatype Run = Run(outcomes: seq<Outcome>, fs: Fs, requested: seq<string>)

  /**
   * The bytes `writeToDisk` writes: a non-empty value verbatim, else the
   * decoded attachment, else nothing.
   */
  function Payload(a: Asset): (r: Result<seq<uint8>, string>)
    ensures a.value != "" ==> r == Success(Bytes(a.value))
    ensures a.value == "" && a.attachment != "" && Decode(a.attachment).Success? ==>
      r == Success(Decode(a.attachment).value)
    ensures a.value == "" && a.attachment != "" && Decode(a.attachment).Failure? ==>
      r == Failure(DecodeFailure(a.key, Decode(a.attachment).error))
    ensures a.value == "" && a.attachment == "" ==> r == Success([])
    ensures r.Failure? ==> Contains(r.error, "Could not decode") && Contains(r.error, a.key)
  {
    if a.value != "" then Success(Bytes(a.value))
    else if a.attachment != "" then
      match Decode(a.attachment)
      case Success(data) => Success(data)
      case Failure(e) => Failure(DecodeFailure(a.key, e))
    else Success([])
  }

  /**
   * The file `writeToDisk` targets: the working directory and the key
   * glued by a slash, without cleaning.
   */
  function Target(cwd: string, key: string): string {
    cwd + "/" + key
  }

  /**
   * `writeToDisk`: find the working directory, check it, make the parent of
   * the target, create (truncate) the target, then pick and decode the
   * bytes, and write them when there are any.
   */
  function WriteToDisk(h: Host, a: Asset): (r: Step)
    ensures !r.outcome.Done?
    ensures r.outcome.WriteEvent? ==> h.cwd.Success? && r.outcome.target == Target(h.cwd.value, a.key)
    ensures r.outcome.WriteEvent? ==> Payload(a).Success? && Lookup(r.fs, r.outcome.target) == File(Payload(a).value)
    ensures h.cwd.Failure? ==> r.fs == h.fs
    ensures h.cwd.Success? ==> AddsOnlyDirectoriesBesides(h.fs, r.fs, Clean(Target(h.cwd.value, a.key)))
  {
    match h.cwd
    case Failure(e) => Step(Notify(e), h.fs)
    case Success(dir) =>
      match Stat(h.fs, dir)
      case Failure(e) => Step(Notify(e), h.fs)
      case Success(_) =>
        var filename := Target(dir, a.key);
        match MkdirAll(h.fs, Dir(filename))
        case Failure(e) => Step(Notify(e), h.fs)
        case Success(fs1) =>
          match Create(fs1, filename)
          case Failure(e) => Step(Notify(e), fs1)
          case Success(fs2) =>
            match Payload(a)
            case Failure(e) => Step(Notify(e), fs2)
            case Success(data) =>
              if |data| == 0 then Step(WriteEvent(filename), fs2)
              else
                match WriteFile(fs2, filename, data, h.diskFull)
                case Failure(e) => Step(Notify(e), fs2)
                case Success(fs3) => Step(WriteEvent(filename), fs3)
  }

  /** Whether every step of `writeToDisk` would succeed on this host. */
  predicate WriteSucceeds(h: Host, a: Asset) {
    && h.cwd.Success?
    && Lookup(h.fs, h.cwd.value) != Missing
    && var filename := Target(h.cwd.value, a.key);
       match MkdirAll(h.fs, Dir(filename))
       case Failure(_) => false
       case Success(fs1) =>
         && Create(fs1, filename).Success?
         && Payload(a).Success?
         && (!h.diskFull || |Payload(a).value| == 0)
  }

  /** A write event is reported exactly when every step succeeded; otherwise one notification. */
  lemma EventIffAllSucceed(h: Host, a: Asset)
    ensures WriteToDisk(h, a).outcome.WriteEvent? <==> WriteSucceeds(h, a)
    ensures !WriteSucceeds(h, a) ==> WriteToDisk(h, a).outcome.Notify?
  {
  }

  /** A non-empty value is what lands on disk, even when an attachment is set too. */
  lemma ValueTakesPriority(h: Host, a: Asset)
    requires a.value != "" && WriteToDisk(h, a).outcome.WriteEvent?
    ensures Lookup(WriteToDisk(h, a).fs, WriteToDisk(h, a).outcome.target) == File(Bytes(a.value))
  {
  }

  /** A bad attachment is reported, but only after the target was created empty. */
  lemma DecodeFailureLeavesEmptyFile(h: Host, a: Asset)
    requires h.cwd.Success? && Lookup(h.fs, h.cwd.value) != Missing
    requires a.value == "" && Decode(a.attachment).Failure?
    requires var filename := Target(h.cwd.value, a.key);
      && MkdirAll(h.fs, Dir(filename)).Success?
      && Create(MkdirAll(h.fs, Dir(filename)).value, filename).Success?
    ensures var r := WriteToDisk(h, a);
      && r.outcome.Notify?
      && Contains(r.outcome.message, "Could not decode")
      && Lookup(r.fs, Target(h.cwd.value, a.key)) == File([])
  {
    EncodeEmpty([]);
  }

  /** An asset with no content still yields an empty file and a write event. */
  lemma EmptyAssetStillWrites(h: Host, a: Asset)
    requires h.cwd.Success? && Lookup(h.fs, h.cwd.value) != Missing
    requires a.value == "" && a.attachment == ""
    requires var filename := Target(h.cwd.value, a.key);
      && MkdirAll(h.fs, Dir(filename)).Success?
      && Create(MkdirAll(h.fs, Dir(filename)).value, filename).Success?
    ensures var r := WriteToDisk(h, a);
      && r.outcome == WriteEvent(Target(h.cwd.value, a.key))
      && Lookup(r.fs, Target(h.cwd.value, a.key)) == File([])
  {
  }

  /** For an asset that carries one form of content, `writeToDisk` writes what `Contents` gives. */
  lemma PayloadAgreesWithContents(a: Asset)
    requires a.value == "" || a.attachment == ""
    ensures Payload(a) == Contents(a)
  {
  }

  /** Write each asset in turn, one outcome per asset. */
  function WriteAll(h: Host, assets: seq<Asset>): (r: Run)
    ensures |r.outcomes| == |assets|
    ensures r.requested == []
    ensures forall i :: 0 <= i < |r.outcomes| ==> !r.outcomes[i].Done?
    decreases |assets|
  {
    if |assets| == 0 then Run([], h.fs, [])
    else
      var s := WriteToDisk(h, assets[0]);
      var rest := WriteAll(h.(fs := s.fs), assets[1..]);
      Run([s.outcome] + rest.outcomes, rest.fs, rest.requested)
  }

  /** The outcome for the `i`-th asset is that asset's own write, on the disk the earlier writes left. */
  lemma {:induction false} WriteAllInOrder(h: Host, assets: seq<Asset>, i: nat)
    requires i < |assets|
    ensures var before := WriteAll(h, assets[..i]);
      WriteAll(h, assets).outcomes[i] == WriteToDisk(h.(fs := before.fs), assets[i]).outcome
    decreases i
  {
    if i > 0 {
      var s := WriteToDisk(h, assets[0]);
      assert assets[..i][0] == assets[0];
      assert assets[..i][1..] == assets[1..][..i - 1];
      WriteAllInOrder(h.(fs := s.fs), assets[1..], i - 1);
    }
  }

  /** Every write event of a run names the target of the asset at the same position. */
  lemma {:induction false} WriteAllTargets(h: Host, assets: seq<Asset>)
    ensures forall i :: 0 <= i < |assets| && WriteAll(h, assets).outcomes[i].WriteEvent? ==>
      h.cwd.Success? && WriteAll(h, assets).outcomes[i].target == Target(h.cwd.value, assets[i].key)
    decreases |assets|
  {
    if |assets| > 0 {
      var s := WriteToDisk(h, assets[0]);
      WriteAllTargets(h.(fs := s.fs), assets[1..]);
    }
  }

  /** `downloadAllFiles`: write the listed assets in the order received, then signal done once. */
  function DownloadAllFiles(h: Host, assets: seq<Asset>): (r: Run)
    ensures |r.outcomes| == |assets| + 1
    ensures r.outcomes[|assets|] == Done
    ensures forall i :: 0 <= i < |assets| ==> !r.outcomes[i].Done?
    ensures r.outcomes[..|assets|] == WriteAll(h, assets).outcomes
    ensures r.requested == []
  {
    var w := WriteAll(h, assets);
    Run(w.outcomes + [Done], w.fs, w.requested)
  }

  /** How fetching one named asset from the remote theme turns out. */
  type Retrieval = string -> Result<Asset, string>

  /** One targeted step: a failed fetch is a notification and leaves the disk alone. */
  function FetchAndWrite(h: Host, retrieve: Retrieval, filename: string): (r: Step)
    ensures !r.outcome.Done?
    ensures retrieve(filename).Failure? ==> r == Step(Notify(retrieve(filename).error), h.fs)
    ensures retrieve(filename).Success? ==> r == WriteToDisk(h, retrieve(filename).value)
  {
    match retrieve(filename)
    case Failure(e) => Step(Notify(e), h.fs)
    case Success(a) => WriteToDisk(h, a)
  }

  /** Fetch and write each named asset in turn, one outcome per name. */
  function FetchAll(h: Host, retrieve: Retrieval, filenames: seq<string>): (r: Run)
    ensures |r.outcomes| == |filenames|
    ensures r.requested == filenames
    ensures forall i :: 0 <= i < |r.outcomes| ==> !r.outcomes[i].Done?
    decreases |filenames|
  {
    if |filenames| == 0 then Run([], h.fs, [])
    else
      var s := FetchAndWrite(h, retrieve, filenames[0]);
      var rest := FetchAll(h.(fs := s.fs), retrieve, filenames[1..]);
      Run([s.outcome] + rest.outcomes, rest.fs, [filenames[0]] + rest.requested)
  }

  /** The outcome for the `i`-th name comes from fetching that name, on the disk the earlier steps left. */
  lemma {:induction false} FetchAllInOrder(h: Host, retrieve: Retrieval, filenames: seq<string>, i: nat)
    requires i < |filenames|
    ensures var before := FetchAll(h, retrieve, filenames[..i]);
      FetchAll(h, retrieve, filenames).outcomes[i] == FetchAndWrite(h.(fs := before.fs), retrieve, filenames[i]).outcome
    decreases i
  {
    if i > 0 {
      var s := FetchAndWrite(h, retrieve, filenames[0]);
      assert filenames[..i][0] == filenames[0];
      assert filenames[..i][1..] == filenames[1..][..i - 1];
      FetchAllInOrder(h.(fs := s.fs), retrieve, filenames[1..], i - 1);
    }
  }

  /** A name that cannot be fetched is reported at its own position and the run goes on. */
  lemma {:induction false} FailedFetchIsolated(h: Host, retrieve: Retrieval, filenames: seq<string>)
    ensures forall i :: 0 <= i < |filenames| && retrieve(filenames[i]).Failure? ==>
      FetchAll(h, retrieve, filenames).outcomes[i] == Notify(retrieve(filenames[i]).error)
    decreases |filenames|
  {
    if |filenames| > 0 {
      var s := FetchAndWrite(h, retrieve, filenames[0]);
      FailedFetchIsolated(h.(fs := s.fs), retrieve, filenames[1..]);
    }
  }

  /** Number of write events in a list of outcomes. */
  function Writes(outcomes: seq<Outcome>): (n: nat)
    ensures n <= |outcomes|
  {
    if |outcomes| == 0 then 0
    else (if outcomes[0].WriteEvent? then 1 else 0) + Writes(outcomes[1..])
  }

  /** Number of names that cannot be fetched. */
  function Unfetchable(retrieve: Retrieval, filenames: seq<string>): (n: nat)
    ensures n <= |filenames|
  {
    if |filenames| == 0 then 0
    else (if retrieve(filenames[0]).Failure? then 1 else 0) + Unfetchable(retrieve, filenames[1..])
  }

  /** Number of notifications in a list of outcomes. */
  function Notices(outcomes: seq<Outcome>): (n: nat)
    ensures n <= |outcomes|
  {
    if |outcomes| == 0 then 0
    else (if outcomes[0].Notify? then 1 else 0) + Notices(outcomes[1..])
  }

  /**
   * Whether every name that can be fetched gives an asset whose write
   * succeeds on the disk the earlier steps of the run left.
   */
  predicate FetchedAllWritable(h: Host, retrieve: Retrieval, filenames: seq<string>)
    decreases |filenames|
  {
    || |filenames| == 0
    || (&& (retrieve(filenames[0]).Success? ==> WriteSucceeds(h, retrieve(filenames[0]).value))
        && FetchedAllWritable(h.(fs := FetchAndWrite(h, retrieve, filenames[0]).fs), retrieve, filenames[1..]))
  }

  /**
   * With N names of which M cannot be fetched: every name is either written
   * or noticed, at least M are noticed, so at most N - M are written; and
   * when every fetched asset can be written, exactly N - M are written and
   * exactly M noticed.
   */
  lemma {:induction false} WritesBounded(h: Host, retrieve: Retrieval, filenames: seq<string>)
    ensures var r := FetchAll(h, retrieve, filenames);
      Writes(r.outcomes) + Notices(r.outcomes) == |filenames|
    ensures Notices(FetchAll(h, retrieve, filenames).outcomes) >= Unfetchable(retrieve, filenames)
    ensures Writes(FetchAll(h, retrieve, filenames).outcomes) <= |filenames| - Unfetchable(retrieve, filenames)
    ensures FetchedAllWritable(h, retrieve, filenames) ==>
      && Writes(FetchAll(h, retrieve, filenames).outcomes) == |filenames| - Unfetchable(retrieve, filenames)
      && Notices(FetchAll(h, retrieve, filenames).outcomes) == Unfetchable(retrieve, filenames)
    decreases |filenames|
  {
    if |filenames| > 0 {
      var s := FetchAndWrite(h, retrieve, filenames[0]);
      var r := FetchAll(h, retrieve, filenames);
      WritesBounded(h.(fs := s.fs), retrieve, filenames[1..]);
      assert r.outcomes[1..] == FetchAll(h.(fs := s.fs), retrieve, filenames[1..]).outcomes;
      if retrieve(filenames[0]).Success? {
        EventIffAllSucceed(h, retrieve(filenames[0]).value);
      }
    }
  }

  /** `downloadFiles`: fetch and write each name in input order, then signal done once. */
  function DownloadFiles(h: Host, retrieve: Retrieval, filenames: seq<string>): (r: Run)
    ensures |r.outcomes| == |filenames| + 1
    ensures r.outcomes[|filenames|] == Done
    ensures forall i :: 0 <= i < |filenames| ==> !r.outcomes[i].Done?
    ensures r.outcomes[..|filenames|] == FetchAll(h, retrieve, filenames).outcomes
    ensures r.requested == filenames
  {
    var f := FetchAll(h, retrieve, filenames);
    Run(f.outcomes + [Done], f.fs, f.requested)
  }

  /** What a `Download` run did: the remote listings its branch asks for (one or none), and the run itself. */
  datatype Trace = Trace(listCalls: nat, run: Run)

  /**
   * `Download`: with no names, list every asset once and write them all in
   * the order listed; with names, fetch exactly those, one request each,
   * in the order given.
   */
  function Download(h: Host, filenames: seq<string>, listed: seq<Asset>, retrieve: Retrieval): (t: Trace)
    ensures t.listCalls == 1 <==> |filenames| == 0
    ensures t.listCalls <= 1
    ensures t.run.requested == filenames
    ensures |filenames| == 0 ==>
      && |t.run.outcomes| == |listed| + 1
      && t.run.outcomes[..|listed|] == WriteAll(h, listed).outcomes
    ensures |filenames| > 0 ==>
      && |t.run.outcomes| == |filenames| + 1
      && t.run.outcomes[..|filenames|] == FetchAll(h, retrieve, filenames).outcomes
    ensures |t.run.outcomes| > 0 && t.run.outcomes[|t.run.outcomes| - 1] == Done
    ensures forall i :: 0 <= i < |t.run.outcomes| - 1 ==> !t.run.outcomes[i].Done?
  {
    if |filenames| == 0 then Trace(1, DownloadAllFiles(h, listed))
    else Trace(0, DownloadFiles(h, retrieve, filenames))
  }

  /**
   * `drainErrors`: report errors as they arrive and stop at the first
   * absent one, which is also what a closed stream yields.
   */
  function DrainErrors(errs: seq<Option<string>>): (notices: seq<string>)
    ensures |notices| <= |errs|
    ensures forall k :: 0 <= k < |notices| ==> errs[k] == Some(notices[k])
    ensures |notices| < |errs| ==> errs[|notices|].None?
  {
    if |errs| == 0 || errs[0].None? then []
    else [errs[0].value] + DrainErrors(errs[1..])
  }
}

=== FILE: filepath.dfy ===
/**
 * Go's `path/filepath` on a POSIX host, lexically: `Clean`, `Join` and
 * `Dir`.  `/` is the only separator, so `ToSlash` is the identity and is
 * not modelled separately.
 */
module FilePath {
  import opened Strings
  import opened SplitJoinLaws

  /** A path is rooted when it starts at `/`. */
  predicate Rooted(p: string) {
    |p| > 0 && p[0] == '/'
  }

  /**
   * The shape of the segment list that `Clean` produces: no empty or `.`
   * segments, no separator inside a segment, every `..` in front of all
   * other segments, and no `..` at all under a rooted path.
   */
  predicate Canonical(segs: seq<string>, rooted: bool) {
    && (forall k :: 0 <= k < |segs| ==> segs[k] != "" && segs[k] != "." && '/' !in segs[k])
    && (forall i, j :: 0 <= i < j < |segs| && segs[j] == ".." ==> segs[i] == "..")
    && (rooted ==> forall k :: 0 <= k < |segs| ==> segs[k] != "..")
  }

  /**
   * One step of Clean's scan: skip empty and `.` segments, let `..` cancel
   * the last real segment (dropped at the top of a rooted path, kept
   * otherwise), and append anything else.
   */
  function Fold(acc: seq<string>, seg: string, rooted: bool): (r: seq<string>)
    requires Canonical(acc, rooted) && '/' !in seg
    ensures Canonical(r, rooted)
  {
    if seg == "" || seg == "." then acc
    else if seg == ".." then
      if |acc| > 0 && acc[|acc| - 1] != ".." then acc[..|acc| - 1]
      else if rooted then acc
      else
        assert forall k :: 0 <= k < |acc| ==> acc[k] == "..";
        acc + [".."]
    else acc + [seg]
  }

  /** Clean's scan over the raw segments, left to right. */
  function Resolve(segs: seq<string>, rooted: bool, acc: seq<string>): (r: seq<string>)
    requires Canonical(acc, rooted)
    requires forall k :: 0 <= k < |segs| ==> '/' !in segs[k]
    ensures Canonical(r, rooted)
    decreases |segs|
  {
    if |segs| == 0 then acc else Resolve(segs[1..], rooted, Fold(acc, segs[0], rooted))
  }

  /** The canonical segments of `p`. */
  function Segments(p: string): (segs: seq<string>)
    ensures Canonical(segs, Rooted(p))
  {
    Resolve(Split(p, '/'), Rooted(p), [])
  }

  /** Spell canonical segments as a path; the empty relative path is `.`. */
  function Render(segs: seq<string>, rooted: bool): string
  {
    if rooted then "/" + Join(segs, '/')
    else if |segs| == 0 then "."
    else Join(segs, '/')
  }

  /** `filepath.Clean`: the shortest lexically equivalent path. */
  function Clean(p: string): (r: string)
    ensures |r| > 0
    ensures Rooted(r) == Rooted(p)
  {
    var segs := Segments(p);
    assert |segs| > 0 ==> segs[0] <= Join(segs, '/') by {
      if |segs| > 0 {
        JoinStartsWithFirst(segs, '/');
      }
    }
    Render(segs, Rooted(p))
  }

  /**
   * `filepath.Join` of two elements: empty elements are ignored, the rest
   * are joined by `/` and cleaned; two empty elements give `""`.
   */
  function Join2(a: string, b: string): (r: string)
    ensures a != "" || b != "" ==> r != ""
  {
    if a == "" && b == "" then ""
    else if a == "" then Clean(b)
    else if b == "" then Clean(a)
    else Clean(a + "/" + b)
  }

  /** Index of the last `/` in `p`, or -1 when there is none. */
  function LastSlash(p: string): (i: int)
    ensures -1 <= i < |p|
    ensures i >= 0 ==> p[i] == '/'
    ensures forall k :: i < k < |p| ==> p[k] != '/'
  {
    if |p| == 0 then -1
    else if p[|p| - 1] == '/' then |p| - 1
    else LastSlash(p[..|p| - 1])
  }

  /** `filepath.Dir`: everything before the last separator, cleaned. */
  function Dir(p: string): (r: string)
    ensures |r| > 0
  {
    Clean(p[..LastSlash(p) + 1])
  }

  /** Resolving a concatenation resolves the second part from where the first left off. */
  lemma {:induction false} ResolveConcat(xs: seq<string>, ys: seq<string>, rooted: bool, acc: seq<string>)
    requires Canonical(acc, rooted)
    requires forall k :: 0 <= k < |xs| ==> '/' !in xs[k]
    requires forall k :: 0 <= k < |ys| ==> '/' !in ys[k]
    ensures Resolve(xs + ys, rooted, acc) == Resolve(ys, rooted, Resolve(xs, rooted, acc))
    decreases |xs|
  {
    if |xs| == 0 {
      assert xs + ys == ys;
    } else {
      assert (xs + ys)[0] == xs[0];
      assert (xs + ys)[1..] == xs[1..] + ys;
      ResolveConcat(xs[1..], ys, rooted, Fold(acc, xs[0], rooted));
    }
  }

  /** A leading `./` on a relative path does not change where it points. */
  lemma CleanDotPrefix(q: string)
    requires q != "" && q[0] != '/'
    ensures Clean("./" + q) == Clean(q)
  {
    assert "./" + q == "." + ['/'] + q;
    SplitConcat(".", q, '/');
    assert Split(".", '/') == ["."];
    ResolveConcat(["."], Split(q, '/'), false, []);
  }

  /** Joining a directory with `./q` is joining it with `q`. */
  lemma Join2DotPrefix(dir: string, q: string)
    requires q != "" && q[0] != '/'
    ensures Join2(dir, "./" + q) == Join2(dir, q)
  {
    if dir == "" {
      CleanDotPrefix(q);
    } else {
      assert dir + "/" + ("./" + q) == dir + ['/'] + ("." + ['/'] + q);
      assert dir + "/" + q == dir + ['/'] + q;
      CleanSkipsSegment(dir, ".", q);
    }
  }

  /** A doubled separator between two parts counts as one. */
  lemma CleanDoubleSlash(a: string, b: string)
    requires a != ""
    ensures Clean(a + "//" + b) == Clean(a + "/" + b)
  {
    assert a + "//" + b == a + ['/'] + ("" + ['/'] + b);
    assert a + "/" + b == a + ['/'] + b;
    CleanSkipsSegment(a, "", b);
  }

  /** An empty or `.` segment between two parts is skipped by Clean. */
  lemma CleanSkipsSegment(a: string, m: string, b: string)
    requires a != "" && (m == "" || m == ".")
    ensures Clean(a + ['/'] + (m + ['/'] + b)) == Clean(a + ['/'] + b)
  {
    var long, short := a + ['/'] + (m + ['/'] + b), a + ['/'] + b;
    SplitConcat(a, m + ['/'] + b, '/');
    SplitConcat(m, b, '/');
    SplitConcat(a, b, '/');
    SplitWhole(m, '/');
    var xs, ys, r := Split(a, '/'), Split(b, '/'), Rooted(a);
    assert Rooted(long) == r && Rooted(short) == r;
    ResolveSkipping(xs, ys, r, m);
  }

  /** Helper: resolving past an empty or `.` segment changes nothing. */
  lemma ResolveSkipping(xs: seq<string>, ys: seq<string>, rooted: bool, m: string)
    requires m == "" || m == "."
    requires forall k :: 0 <= k < |xs| ==> '/' !in xs[k]
    requires forall k :: 0 <= k < |ys| ==> '/' !in ys[k]
    ensures Resolve(xs + ([m] + ys), rooted, []) == Resolve(xs + ys, rooted, [])
  {
    ResolveConcat(xs, [m] + ys, rooted, []);
    var acc := Resolve(xs, rooted, []);
    ResolveConcat([m], ys, rooted, acc);
    assert Resolve([m], rooted, acc) == acc;
    ResolveConcat(xs, ys, rooted, []);
  }

  /** The first `k` of canonical segments are canonical. */
  lemma CanonicalPrefix(segs: seq<string>, rooted: bool, k: nat)
    requires Canonical(segs, rooted) && k <= |segs|
    ensures Canonical(segs[..k], rooted)
  {
    var pre := segs[..k];
    assert forall t :: 0 <= t < |pre| ==> pre[t] == segs[t];
  }

  /** Resolving segments that are already canonical changes nothing. */
  lemma {:induction false} ResolveCanonical(segs: seq<string>, rooted: bool, acc: seq<string>)
    requires Canonical(acc + segs, rooted)
    ensures Canonical(acc, rooted)
    ensures forall k :: 0 <= k < |segs| ==> '/' !in segs[k]
    ensures Resolve(segs, rooted, acc) == acc + segs
    decreases |segs|
  {
    var all := acc + segs;
    assert forall k :: 0 <= k < |acc| ==> acc[k] == all[k];
    assert forall k :: 0 <= k < |segs| ==> segs[k] == all[|acc| + k];
    if |segs| > 0 {
      var s := segs[0];
      if s == ".." {
        assert all[|acc|] == "..";
        assert forall k :: 0 <= k < |acc| ==> acc[k] == "..";
      }
      assert Fold(acc, s, rooted) == acc + [s];
      assert (acc + [s]) + segs[1..] == all;
      ResolveCanonical(segs[1..], rooted, acc + [s]);
    }
  }

  /** Spelling canonical segments and cleaning the result gives them back. */
  lemma SegmentsOfRender(segs: seq<string>, rooted: bool)
    requires Canonical(segs, rooted)
    ensures Segments(Render(segs, rooted)) == segs
    ensures Rooted(Render(segs, rooted)) == rooted
  {
    if rooted {
      SegmentsOfRooted(segs);
    } else if |segs| == 0 {
      assert Render(segs, rooted) == ".";
      assert Split(".", '/') == ["."];
    } else {
      SegmentsOfRelative(segs);
    }
  }

  /** Helper: the rooted spelling `/a/b` of canonical segments. */
  lemma SegmentsOfRooted(segs: seq<string>)
    requires Canonical(segs, true)
    ensures Segments("/" + Join(segs, '/')) == segs
    ensures Rooted("/" + Join(segs, '/'))
  {
    var body := Join(segs, '/');
    SplitRooted(body);
    if |segs| == 0 {
      SegmentsOfSlash();
    } else {
      ResolveJoin(segs, true);
    }
  }

  /** Helper: resolving the pieces of a join of canonical segments gives them back. */
  lemma ResolveJoin(segs: seq<string>, rooted: bool)
    requires Canonical(segs, rooted) && |segs| > 0
    ensures Resolve(Split(Join(segs, '/'), '/'), rooted, []) == segs
  {
    SplitJoin(segs, '/');
    ResolveCanonical(segs, rooted, []);
    assert [] + segs == segs;
  }

  /** Helper: the root on its own has no segments. */
  lemma SegmentsOfSlash()
    ensures Resolve(Split("", '/'), true, []) == []
  {
    assert Split("", '/') == [""];
  }

  /** Helper: a leading separator contributes one empty segment, which Clean skips. */
  lemma SplitRooted(body: string)
    ensures Rooted("/" + body)
    ensures Segments("/" + body) == Resolve(Split(body, '/'), true, [])
  {
    var p := "/" + body;
    assert p == "" + ['/'] + body;
    SplitConcat("", body, '/');
    assert Split("", '/') == [""];
    var bs := Split(body, '/');
    assert Split(p, '/') == [""] + bs;
    ResolveConcat([""], bs, true, []);
    assert Resolve([""], true, []) == [];
  }

  /** Helper: the relative spelling `a/b` of one or more canonical segments. */
  lemma SegmentsOfRelative(segs: seq<string>)
    requires Canonical(segs, false) && |segs| > 0
    ensures Segments(Join(segs, '/')) == segs
    ensures !Rooted(Join(segs, '/'))
  {
    JoinStartsWithFirst(segs, '/');
    assert segs[0] != "" && '/' !in segs[0];
    assert segs[0][0] != '/';
    SplitJoin(segs, '/');
    ResolveCanonical(segs, false, []);
    assert [] + segs == segs;
  }

  /** A path spelled from canonical segments is already clean. */
  lemma CleanOfRender(segs: seq<string>, rooted: bool)
    requires Canonical(segs, rooted)
    ensures Clean(Render(segs, rooted)) == Render(segs, rooted)
  {
    SegmentsOfRender(segs, rooted);
  }

  /** Two ordinary names joined by a separator form a clean path. */
  lemma CleanOfTwo(a: string, b: string)
    requires Canonical([a, b], false) && a != ".."
    ensures Clean(a + "/" + b) == a + "/" + b
  {
    var segs := [a, b];
    assert segs[1..] == [b];
    assert Join(segs, '/') == a + "/" + b;
    CleanOfRender(segs, false);
  }

  /** Cleaning is idempotent. */
  lemma CleanIdempotent(p: string)
    ensures Clean(Clean(p)) == Clean(p)
  {
    SegmentsOfRender(Segments(p), Rooted(p));
  }

  /** A clean path ends in `/` only when it is the root itself. */
  lemma CleanTrailingSlash(p: string)
    ensures var c := Clean(p); c[|c| - 1] == '/' ==> c == "/"
  {
    var segs := Segments(p);
    if |segs| > 0 {
      JoinEndsWithLast(segs, '/');
    }
  }

  /** A clean path never starts with two separators. */
  lemma CleanNoDoubleSlash(p: string)
    ensures !("//" <= Clean(p))
  {
    var segs := Segments(p);
    var j := Join(segs, '/');
    assert Clean(p) == Render(segs, Rooted(p));
    if |segs| > 0 {
      JoinStartsWithFirst(segs, '/');
      assert segs[0] != "" && '/' !in segs[0];
      assert j[0] == segs[0][0] != '/';
      if Rooted(p) {
        assert Clean(p)[1] == j[0];
      }
    } else {
      assert j == "";
    }
  }

  /** A path whose every segment is an ordinary name: no empty, `.` or `..` segment. */
  predicate Plain(p: string) {
    forall k :: 0 <= k < |Split(p, '/')| ==>
      Split(p, '/')[k] != "" && Split(p, '/')[k] != "." && Split(p, '/')[k] != ".."
  }

  /** A trailing separator does not change a non-empty path. */
  lemma CleanTrailing(x: string)
    requires x != ""
    ensures Clean(x + "/") == Clean(x)
  {
    assert x + "/" == x + ['/'] + "";
    SplitConcat(x, "", '/');
    assert Split("", '/') == [""];
    ResolveConcat(Split(x, '/'), [""], Rooted(x), []);
    assert Rooted(x + "/") == Rooted(x);
  }

  /** The last separator of `x/last` is the one before `last`. */
  lemma {:induction false} LastSlashBefore(x: string, last: string)
    requires '/' !in last
    ensures LastSlash(x + "/" + last) == |x|
    decreases |last|
  {
    var p := x + "/" + last;
    if last != "" {
      var shorter := last[..|last| - 1];
      assert p[|p| - 1] == last[|last| - 1] != '/';
      assert p[..|p| - 1] == x + "/" + shorter;
      LastSlashBefore(x, shorter);
    }
  }

  /** `Dir` of a canonical path drops its last segment. */
  lemma DirOfRender(segs: seq<string>, rooted: bool)
    requires Canonical(segs, rooted) && |segs| > 0
    ensures Canonical(segs[..|segs| - 1], rooted)
    ensures Dir(Render(segs, rooted)) == Render(segs[..|segs| - 1], rooted)
  {
    var init, last := segs[..|segs| - 1], segs[|segs| - 1];
    assert segs == init + [last];
    assert Canonical(init, rooted);
    if |init| == 0 {
      DirOfSingle(last, rooted);
      assert segs == [last];
    } else {
      DirOfLonger(init, last, rooted);
    }
  }

  /** Helper: the directory of a one-segment path is the root or `.`. */
  lemma DirOfSingle(last: string, rooted: bool)
    requires Canonical([last], rooted)
    ensures Dir(Render([last], rooted)) == Render([], rooted)
  {
    var p := Render([last], rooted);
    assert Join([last], '/') == last;
    assert '/' !in last;
    if rooted {
      assert p == "/" + last;
      LastSlashBefore("", last);
      assert p[..1] == "/";
      assert Render([], true) == "/";
      CleanOfRender([], true);
    } else {
      assert p == last;
      assert LastSlash(p) == -1;
      assert p[..0] == "";
      assert Split("", '/') == [""];
    }
  }

  /** Helper: the directory of a path of two or more segments. */
  lemma DirOfLonger(init: seq<string>, last: string, rooted: bool)
    requires Canonical(init + [last], rooted) && |init| > 0
    ensures Dir(Render(init + [last], rooted)) == Render(init, rooted)
  {
    var segs := init + [last];
    assert segs[..|init|] == init && segs[|init|] == last;
    CanonicalPrefix(segs, rooted, |init|);
    assert '/' !in last;
    var x := Render(init, rooted);
    RenderSnoc(init, last, rooted);
    LastSlashBefore(x, last);
    HeadThroughSlash(x, last);
    CleanTrailing(x);
    CleanOfRender(init, rooted);
  }

  /** Helper: one more segment is spelled after a separator. */
  lemma RenderSnoc(init: seq<string>, last: string, rooted: bool)
    requires |init| > 0
    ensures Render(init + [last], rooted) == Render(init, rooted) + "/" + last
  {
    JoinSnoc(init, '/', last);
    var j := Join(init, '/');
    assert Join(init + [last], '/') == j + "/" + last;
    if rooted {
      assert "/" + (j + "/" + last) == ("/" + j) + "/" + last;
    }
  }

  /** Helper: `x/last` cut just after its separator is `x/`. */
  lemma HeadThroughSlash(x: string, last: string)
    ensures (x + "/" + last)[..|x| + 1] == x + "/"
  {
  }

  /** Joining a plain relative path onto a directory appends its segments. */
  lemma Join2Plain(dir: string, key: string)
    requires dir != "" && Plain(key)
    ensures Canonical(Segments(dir) + Split(key, '/'), Rooted(dir))
    ensures Join2(dir, key) == Render(Segments(dir) + Split(key, '/'), Rooted(dir))
  {
    var ds, ks, r := Segments(dir), Split(key, '/'), Rooted(dir);
    assert Split("", '/') == [""];
    assert ks[0] != "";
    assert key != "";
    var joined := dir + "/" + key;
    assert joined == dir + ['/'] + key;
    SplitConcat(dir, key, '/');
    assert Rooted(joined) == r;
    var all := ds + ks;
    assert Canonical(all, r) by {
      assert forall k :: 0 <= k < |ks| ==> all[|ds| + k] == ks[k];
    }
    ResolveConcat(Split(dir, '/'), ks, r, []);
    ResolveCanonical(ks, r, ds);
    assert Segments(joined) == all;
  }
}

=== FILE: project_path.dfy ===
/**
 * The path resolver of kit/path.go: which filesystem paths under a
 * project root are theme assets, and the remote asset key of each.
 */
module ProjectPath {
  import opened Wrappers
  import opened Strings
  import opened SplitJoinLaws
  import opened FilePath

  /**
   * The recognised top-level directories, in the order they are tried.
   * `templates/customers` must come before `templates`, which is a
   * directory-prefix of it.
   */
  const AssetLocations: seq<string> := [
    "templates/customers",
    "assets",
    "config",
    "layout",
    "snippets",
    "templates",
    "locales",
    "sections"
  ]

  /** No entry of `locs` is a directory-prefix of a later entry. */
  predicate MostSpecificFirst(locs: seq<string>) {
    forall i, j :: 0 <= i < j < |locs| ==> !(locs[i] + "/" <= locs[j] + "/")
  }

  /**
   * The cleaned filename with the cleaned root and one `/` stripped from
   * its front when they are there; otherwise the cleaned filename whole.
   */
  function Relative(root: string, filename: string): string {
    TrimPrefix(Clean(filename), Clean(root) + "/")
  }

  /** The scan of isProjectDirectory: does any entry from `i` on equal `rel`? */
  function ExactMatchFrom(locs: seq<string>, rel: string, i: nat): (found: bool)
    requires i <= |locs|
    ensures found <==> exists j :: i <= j < |locs| && locs[j] == rel
    decreases |locs| - i
  {
    if i == |locs| then false
    else if locs[i] == rel then true
    else ExactMatchFrom(locs, rel, i + 1)
  }

  /** isProjectDirectory: the root-relative path is exactly a recognised directory. */
  function IsProjectDirectory(root: string, filename: string): (b: bool)
    ensures b <==> Relative(root, filename) in AssetLocations
  {
    ExactMatchFrom(AssetLocations, Relative(root, filename), 0)
  }

  /** First index at or after `from` where `pat` occurs in `s`. */
  function Find(s: string, pat: string, from: nat): (r: Option<nat>)
    requires from <= |s|
    ensures r.Some? ==> from <= r.value <= |s| && pat <= s[r.value..]
    ensures r.Some? ==> forall k :: from <= k < r.value ==> !(pat <= s[k..])
    ensures r.None? ==> forall k :: from <= k <= |s| ==> !(pat <= s[k..])
    decreases |s| - from
  {
    if pat <= s[from..] then Some(from)
    else if from == |s| then None
    else Find(s, pat, from + 1)
  }

  /** `strings.SplitAfterN(s, sep, 2)`: cut once, just after the first `sep`. */
  function SplitAfter2(s: string, sep: string): (parts: seq<string>)
    ensures |parts| == 1 || |parts| == 2
    ensures |parts| == 1 ==> parts[0] == s
    ensures |parts| == 2 ==> parts[0] + parts[1] == s
    ensures |parts| == 2 ==> |sep| <= |parts[0]| && parts[0][|parts[0]| - |sep|..] == sep
    ensures |parts| == 2 ==> forall k :: 0 <= k < |parts[0]| - |sep| ==> !(sep <= s[k..])
    ensures |parts| == 1 ==> forall k :: 0 <= k <= |s| ==> !(sep <= s[k..])
    ensures sep <= s ==> parts == [sep, s[|sep|..]]
  {
    match Find(s, sep, 0)
    case None => [s]
    case Some(i) =>
      var head := s[..i + |sep|];
      assert head[i..] == s[i..i + |sep|];
      [head, s[i + |sep|..]]
  }

  /** SplitAfterN cuts exactly when the separator occurs somewhere. */
  lemma SplitAfter2Cuts(s: string, sep: string)
    ensures |SplitAfter2(s, sep)| == 2 <==> exists k :: 0 <= k <= |s| && sep <= s[k..]
  {
    match Find(s, sep, 0)
    case None =>
    case Some(i) =>
  }

  /** Whether pathToProject's loop accepts `dir` for `rel`. */
  predicate Accepts(rel: string, dir: string) {
    |SplitAfter2(rel, dir + "/")| > 1 && dir + "/" <= rel
  }

  /** Helper: the loop accepts `dir` exactly when `dir/` prefixes `rel`. */
  lemma AcceptsIff(rel: string, dir: string)
    ensures Accepts(rel, dir) <==> dir + "/" <= rel
  {
    if dir + "/" <= rel {
      assert |SplitAfter2(rel, dir + "/")| == 2;
    }
  }

  /** The scan of pathToProject: the first entry from `i` on that `rel` lies under. */
  function MatchFrom(locs: seq<string>, rel: string, i: nat): (r: Option<nat>)
    requires i <= |locs|
    ensures r.Some? ==> i <= r.value < |locs| && locs[r.value] + "/" <= rel
    ensures r.Some? ==> forall j :: i <= j < r.value ==> !(locs[j] + "/" <= rel)
    ensures r.None? ==> forall j :: i <= j < |locs| ==> !(locs[j] + "/" <= rel)
    decreases |locs| - i
  {
    if i == |locs| then None
    else
      AcceptsIff(rel, locs[i]);
      if Accepts(rel, locs[i]) then Some(i)
      else MatchFrom(locs, rel, i + 1)
  }

  /** pathToProject: the asset key of `filename`, or `""` when it is not under a recognised directory. */
  function PathToProject(root: string, filename: string): (r: string)
    ensures r == "" <==> forall j :: 0 <= j < |AssetLocations| ==> !(AssetLocations[j] + "/" <= Relative(root, filename))
  {
    var rel := Relative(root, filename);
    match MatchFrom(AssetLocations, rel, 0)
    case None => ""
    case Some(j) =>
      var dir := AssetLocations[j];
      var split := SplitAfter2(rel, dir + "/");
      assert dir != "" by { AssetLocationsOrdered(); }
      Join2(dir, split[|split| - 1])
  }

  /** pathInProject: the path lies under, or is, a recognised directory. */
  predicate PathInProject(root: string, filename: string): (b: bool)
    ensures var rel := Relative(root, filename);
      b <==> rel in AssetLocations || exists j :: 0 <= j < |AssetLocations| && AssetLocations[j] + "/" <= rel
  {
    PathToProject(root, filename) != "" || IsProjectDirectory(root, filename)
  }

  /** The location table is ordered most specific first. */
  lemma AssetLocationsOrdered()
    ensures MostSpecificFirst(AssetLocations)
    ensures forall k :: 0 <= k < |AssetLocations| ==> |AssetLocations[k]| > 1 && 'a' <= AssetLocations[k][0] <= 'z'
  {
    var locs := AssetLocations;
    assert forall j :: 1 <= j < |locs| ==> '/' !in locs[j];
    assert forall i, j :: 0 <= i < j < |locs| ==> locs[i] != locs[j];
    DistinctSlashFreeTail(locs);
  }

  /**
   * Distinct entries, all but the first free of separators, are ordered
   * most specific first: a directory-prefix of a separator-free entry is
   * that entry itself.
   */
  lemma DistinctSlashFreeTail(locs: seq<string>)
    requires forall i, j :: 0 <= i < j < |locs| ==> locs[i] != locs[j]
    requires forall j :: 1 <= j < |locs| ==> '/' !in locs[j]
    ensures MostSpecificFirst(locs)
  {
    forall i, j | 0 <= i < j < |locs|
      ensures !(locs[i] + "/" <= locs[j] + "/")
    {
      if locs[i] + "/" <= locs[j] + "/" {
        DirectoryPrefixOfSlashFree(locs[i], locs[j]);
      }
    }
  }

  /** Helper: `a/` is a prefix of `b/` for a separator-free `b` only when `a` is `b`. */
  lemma DirectoryPrefixOfSlashFree(a: string, b: string)
    requires '/' !in b && a + "/" <= b + "/"
    ensures a == b
  {
    var a', b' := a + "/", b + "/";
    assert a'[|a|] == '/' == b'[|a|];
    assert a == a'[..|a|] == b'[..|b|] == b;
  }

  /** A suffix of canonical segments is canonical as a relative path. */
  lemma CanonicalSuffix(segs: seq<string>, rooted: bool, m: nat)
    requires Canonical(segs, rooted) && m <= |segs|
    ensures Canonical(segs[m..], false)
  {
    var t := segs[m..];
    assert forall k :: 0 <= k < |t| ==> t[k] == segs[m + k];
  }

  /** The root-relative path is already clean: cleaning it again changes nothing. */
  lemma RelativeIsClean(root: string, filename: string)
    ensures Clean(Relative(root, filename)) == Relative(root, filename)
  {
    var c := Clean(filename);
    var pre := Clean(root) + "/";
    var rel := Relative(root, filename);
    if !(pre <= c) {
      CleanIdempotent(filename);
    } else {
      var segs := Segments(filename);
      var rooted := Rooted(filename);
      var body := Join(segs, '/');
      assert rel == c[|pre|..];
      assert c[|pre| - 1] == '/';
      var m: nat;
      if rooted {
        assert c == "/" + body;
        m := JoinSuffixAfterSeparator(segs, '/', |pre| - 2);
        assert rel == body[|pre| - 1..];
      } else {
        assert c == body;
        m := JoinSuffixAfterSeparator(segs, '/', |pre| - 1);
      }
      var t := segs[m..];
      assert rel == Join(t, '/');
      CanonicalSuffix(segs, rooted, m);
      SegmentsOfRender(t, false);
      assert Render(t, false) == rel;
    }
  }

  /**
   * pathToProject's promises: `""` exactly when no recognised directory
   * prefixes the root-relative path; otherwise the result is that path
   * itself, which lies under a recognised directory.
   */
  lemma PathToProjectSpec(root: string, filename: string)
    ensures var rel := Relative(root, filename); var r := PathToProject(root, filename);
      && (r == "" <==> forall j :: 0 <= j < |AssetLocations| ==> !(AssetLocations[j] + "/" <= rel))
      && (r != "" ==> r == rel)
      && (r != "" ==> exists j :: 0 <= j < |AssetLocations| && AssetLocations[j] + "/" <= r)
  {
    var rel := Relative(root, filename);
    match MatchFrom(AssetLocations, rel, 0)
    case None =>
    case Some(j) =>
      AssetLocationsOrdered();
      RelativeIsClean(root, filename);
      KeyOfMatch(rel, AssetLocations[j]);
  }

  /** Helper: a clean path under `dir/` keys as itself. */
  lemma KeyOfMatch(rel: string, dir: string)
    requires Clean(rel) == rel && dir != "" && dir + "/" <= rel
    ensures var split := SplitAfter2(rel, dir + "/"); Join2(dir, split[|split| - 1]) == rel
  {
    var sep := dir + "/";
    var rem := rel[|sep|..];
    assert SplitAfter2(rel, sep) == [sep, rem];
    assert rel == sep + rem;
    if rem == "" {
      assert rel == sep;
      CleanTrailingSlash(rel);
      assert false;
    }
    assert dir + "/" + rem == rel;
  }

  /** The entry pathToProject settles on, if any. */
  function MatchedLocation(root: string, filename: string): Option<string> {
    match MatchFrom(AssetLocations, Relative(root, filename), 0)
    case None => None
    case Some(j) => Some(AssetLocations[j])
  }

  /**
   * Trying the table in order finds the most specific directory: no other
   * recognised directory that also prefixes the path is longer.
   */
  lemma MatchIsMostSpecific(root: string, filename: string)
    ensures var rel := Relative(root, filename); var m := MatchedLocation(root, filename);
      && (m.None? <==> forall k :: 0 <= k < |AssetLocations| ==> !(AssetLocations[k] + "/" <= rel))
      && (m.Some? ==> m.value in AssetLocations && m.value + "/" <= rel)
      && (m.Some? ==> forall k :: 0 <= k < |AssetLocations| && AssetLocations[k] + "/" <= rel ==> |AssetLocations[k]| <= |m.value|)
  {
    var rel := Relative(root, filename);
    match MatchFrom(AssetLocations, rel, 0)
    case None =>
    case Some(j) =>
      AssetLocationsOrdered();
      FirstMatchIsLongest(AssetLocations, rel, j);
  }

  /** Helper: in a most-specific-first table, the first entry above `rel` is the longest one. */
  lemma FirstMatchIsLongest(locs: seq<string>, rel: string, j: nat)
    requires MostSpecificFirst(locs)
    requires MatchFrom(locs, rel, 0) == Some(j)
    ensures forall k :: 0 <= k < |locs| && locs[k] + "/" <= rel ==> |locs[k]| <= |locs[j]|
  {
  }

  /**
   * A bare recognised directory is a project directory and so is in the
   * project, but has no asset key of its own, except `templates/customers`,
   * which lies under `templates`.
   */
  lemma BareLocation(root: string, filename: string)
    requires Relative(root, filename) in AssetLocations
    ensures IsProjectDirectory(root, filename)
    ensures PathInProject(root, filename)
    ensures PathToProject(root, filename) == "" <==> Relative(root, filename) != "templates/customers"
  {
    var rel := Relative(root, filename);
    PathToProjectSpec(root, filename);
    if rel == AssetLocations[0] {
      CustomersUnderTemplates(rel);
    } else {
      assert rel in AssetLocations[1..];
      NoLocationUnderBareEntry(rel);
    }
  }

  /** `templates/customers` lies under `templates`. */
  lemma CustomersUnderTemplates(rel: string)
    requires rel == AssetLocations[0]
    ensures AssetLocations[5] + "/" <= rel
  {
  }

  /** An entry other than `templates/customers` has no separator, so no entry lies above it. */
  lemma NoLocationUnderBareEntry(rel: string)
    requires rel in AssetLocations[1..]
    ensures forall j :: 0 <= j < |AssetLocations| ==> !(AssetLocations[j] + "/" <= rel)
  {
    var locs := AssetLocations;
    assert '/' !in rel;
    forall j | 0 <= j < |locs|
      ensures !(locs[j] + "/" <= rel)
    {
      var a := locs[j] + "/";
      assert a[|a| - 1] == '/';
      assert |a| > |rel| || rel[|a| - 1] != '/';
    }
  }

  /**
   * A rooted path that does not start with the root is left whole; it
   * starts with `/`, so it matches no recognised directory.
   */
  lemma OutsideRoot(root: string, filename: string)
    requires Rooted(filename)
    requires !(Clean(root) + "/" <= Clean(filename))
    ensures Relative(root, filename) == Clean(filename)
    ensures PathToProject(root, filename) == ""
    ensures !IsProjectDirectory(root, filename)
    ensures !PathInProject(root, filename)
  {
    AssetLocationsOrdered();
    var rel := Relative(root, filename);
    assert rel[0] == '/';
    forall j | 0 <= j < |AssetLocations|
      ensures !(AssetLocations[j] + "/" <= rel) && AssetLocations[j] != rel
    {
      assert (AssetLocations[j] + "/")[0] == AssetLocations[j][0];
    }
    PathToProjectSpec(root, filename);
  }

  /**
   * A root that cleans to `/` matches no rooted path: the prefix stripped
   * would be `//`, which no cleaned path starts with, so nothing under
   * such a root is in the project.
   */
  lemma RootSlashMatchesNothing(root: string, filename: string)
    requires Clean(root) == "/" && Rooted(filename)
    ensures Relative(root, filename) == Clean(filename)
    ensures PathToProject(root, filename) == ""
    ensures !PathInProject(root, filename)
  {
    assert Clean(root) + "/" == "//";
    CleanNoDoubleSlash(filename);
    OutsideRoot(root, filename);
  }

  /** A path spelled from canonical segments cleans to itself. */
  lemma CleanRendered(p: string, segs: seq<string>, rooted: bool)
    requires Canonical(segs, rooted) && p == Render(segs, rooted)
    ensures Clean(p) == p
  {
    CleanOfRender(segs, rooted);
  }

  /** `/proj/templates/customers/x` keys as `templates/customers/x`, not `templates/x`. */
  lemma CustomersBeforeTemplates(root: string, filename: string)
    requires root == "/proj" && filename == "/proj/templates/customers/x"
    ensures MatchedLocation(root, filename) == Some("templates/customers")
    ensures PathToProject(root, filename) == "templates/customers/x"
  {
    CustomersRelative(root, filename);
    CustomersEntryMatchesFirst(Relative(root, filename));
    PathToProjectSpec(root, filename);
  }

  /** Helper: stripping `/proj/` from `/proj/templates/customers/x`. */
  lemma CustomersRelative(root: string, filename: string)
    requires root == "/proj" && filename == "/proj/templates/customers/x"
    ensures Relative(root, filename) == "templates/customers/x"
  {
    var a, b, c, d := "proj", "templates", "customers", "x";
    var rel := b + "/" + (c + "/" + d);
    assert root == "/" + a;
    assert filename == root + "/" + rel;
    CustomersPathClean(a, b, c, d);
    ProjClean(a);
    RelativeOfClean(root, filename, rel);
  }

  /** Helper: `/proj` is already clean. */
  lemma ProjClean(a: string)
    requires a == "proj"
    ensures Clean("/" + a) == "/" + a
  {
    assert Join([a], '/') == a;
    CleanRendered("/" + a, [a], true);
  }

  /** Helper: under a clean root, a clean path `root/rel` is relative path `rel`. */
  lemma RelativeOfClean(root: string, filename: string, rel: string)
    requires Clean(root) == root && Clean(filename) == filename
    requires filename == root + "/" + rel
    ensures Relative(root, filename) == rel
  {
    assert filename == (root + "/") + rel;
  }

  /** Helper: `/proj/templates/customers/x` is already clean. */
  lemma CustomersPathClean(a: string, b: string, c: string, d: string)
    requires a == "proj" && b == "templates" && c == "customers" && d == "x"
    ensures var p := "/" + a + "/" + (b + "/" + (c + "/" + d)); Clean(p) == p
  {
    var segs := [a, b, c, d];
    assert segs[1..] == [b, c, d] && segs[1..][1..] == [c, d] && segs[1..][1..][1..] == [d];
    assert Join([d], '/') == d;
    assert Join([c, d], '/') == c + "/" + d;
    assert Join([b, c, d], '/') == b + "/" + (c + "/" + d);
    assert Join(segs, '/') == a + "/" + (b + "/" + (c + "/" + d));
    CleanRendered("/" + a + "/" + (b + "/" + (c + "/" + d)), segs, true);
  }

  /** Helper: the scan stops at its first entry for `templates/customers/x`. */
  lemma CustomersEntryMatchesFirst(rel: string)
    requires rel == "templates/customers/x"
    ensures MatchFrom(AssetLocations, rel, 0) == Some(0)
  {
    assert AssetLocations[0] + "/" <= rel;
    assert Accepts(rel, AssetLocations[0]);
  }

  /** `./assets/a.js` and `assets//a.js` are cleaned to `assets/a.js` before matching. */
  lemma NonCanonicalSpellings(root: string, dotted: string, doubled: string)
    requires root == "." && dotted == "./assets/a.js" && doubled == "assets//a.js"
    ensures PathToProject(root, dotted) == "assets/a.js"
    ensures PathToProject(root, doubled) == "assets/a.js"
  {
    DottedCleans(dotted);
    DoubledCleans(doubled);
    KeyOfCleanAssetPath(root, dotted);
    KeyOfCleanAssetPath(root, doubled);
  }

  /** Helper: relative to `.`, a path that cleans to `assets/a.js` keys as `assets/a.js`. */
  lemma KeyOfCleanAssetPath(root: string, filename: string)
    requires root == "." && Clean(filename) == "assets/a.js"
    ensures PathToProject(root, filename) == "assets/a.js"
  {
    CleanRendered(root, [], false);
    var rel := Relative(root, filename);
    assert rel == "assets/a.js";
    AssetsEntryMatches(rel);
    PathToProjectSpec(root, filename);
  }

  /** Helper: `assets/a.js` lies under the `assets` entry. */
  lemma AssetsEntryMatches(rel: string)
    requires rel == "assets/a.js"
    ensures AssetLocations[1] + "/" <= rel
  {
  }

  /** Helper: `./assets/a.js` cleans to `assets/a.js`. */
  lemma DottedCleans(p: string)
    requires p == "./assets/a.js"
    ensures Clean(p) == "assets/a.js"
  {
    var a, b := "assets", "a.js";
    assert p == "./" + (a + "/" + b);
    CleanDotPrefix(a + "/" + b);
    AssetsPathClean(a, b);
  }

  /** Helper: `assets//a.js` cleans to `assets/a.js`. */
  lemma DoubledCleans(p: string)
    requires p == "assets//a.js"
    ensures Clean(p) == "assets/a.js"
  {
    var a, b := "assets", "a.js";
    assert p == a + "//" + b;
    CleanDoubleSlash(a, b);
    AssetsPathClean(a, b);
  }

  /** Helper: `assets/a.js` is already clean. */
  lemma AssetsPathClean(a: string, b: string)
    requires a == "assets" && b == "a.js"
    ensures Clean(a + "/" + b) == "assets/a.js"
  {
    CleanOfTwo(a, b);
  }

  /** The bare `assets` directory: no key, but a project directory, so in the project. */
  lemma BareAssetsDirectory(root: string, filename: string)
    requires root == "/proj" && filename == "/proj/assets"
    ensures PathToProject(root, filename) == ""
    ensures IsProjectDirectory(root, filename)
    ensures PathInProject(root, filename)
  {
    var a, b := "proj", "assets";
    assert root == "/" + a;
    assert filename == root + "/" + b;
    ProjClean(a);
    var segs := [a, b];
    assert segs[1..] == [b];
    assert Join(segs, '/') == a + "/" + b;
    CleanRendered(filename, segs, true);
    RelativeOfClean(root, filename, b);
    BareLocation(root, filename);
  }
}

=== FILE: request.dfy ===
/**
 * Building an authenticated request and the HTTP client that sends it:
 * the header set every request carries, rejection of target and proxy
 * URLs the URL parser refuses, and attaching a raw or JSON body.  The URL
 * parser is a parameter, except for the one rule both tests rely on: a
 * URL that starts with `:` has no scheme.
 */
module Requests {
  import opened Wrappers
  import opened Strings
  import opened SplitJoinLaws
  import opened Transport

  /** One HTTP header line. */
  datatype Header = Header(name: string, value: string)

  /** The operating system and architecture the client was built for. */
  datatype Platform = Platform(os: string, arch: string)

  const ClientName := "go/themekit"

  /**
   * The `User-Agent` value: client name, then platform, then the client
   * version when there is one (the older client sent none).
   */
  function UserAgent(p: Platform, version: Option<string>): (ua: string)
    ensures ClientName + " (" <= ua && ua[|ua| - 1] == ')'
  {
    var tail := if version.Some? then "; " + version.value else "";
    ClientName + " (" + p.os + "; " + p.arch + tail + ")"
  }

  /** Text that fits between the user agent's separators. */
  predicate Token(s: string) {
    ';' !in s && (|s| == 0 || s[0] != ' ')
  }

  /** Drop one leading space. */
  function Unspace(s: string): string {
    if |s| > 0 && s[0] == ' ' then s[1..] else s
  }

  /** Read a user agent back into platform and version. */
  function ParseUserAgent(ua: string): (r: Option<(Platform, Option<string>)>)
  {
    var head := ClientName + " (";
    if !(head <= ua) || |ua| < |head| + 1 || ua[|ua| - 1] != ')' then None
    else ParsePlatform(ua[|head|..|ua| - 1])
  }

  /** Read the part between the parentheses: two or three `; `-separated fields. */
  function ParsePlatform(inner: string): Option<(Platform, Option<string>)> {
    var parts := Split(inner, ';');
    if |parts| == 2 then Some((Platform(parts[0], Unspace(parts[1])), None))
    else if |parts| == 3 then Some((Platform(parts[0], Unspace(parts[1])), Some(Unspace(parts[2]))))
    else None
  }

  /** The user agent names the platform and version it was built from, and nothing else. */
  lemma UserAgentRoundTrip(p: Platform, version: Option<string>)
    requires Token(p.os) && Token(p.arch)
    requires version.Some? ==> Token(version.value)
    ensures ParseUserAgent(UserAgent(p, version)) == Some((p, version))
  {
    var ua := UserAgent(p, version);
    var head := ClientName + " (";
    var tail := if version.Some? then "; " + version.value else "";
    var inner := p.os + "; " + p.arch + tail;
    assert ua == head + inner + ")";
    assert ua[|head|..|ua| - 1] == inner;
    if version.Some? {
      PlatformWithVersion(p, version.value);
    } else {
      assert inner == p.os + "; " + p.arch;
      PlatformWithoutVersion(p);
    }
  }

  /** Helper: the fields of a user agent without a version. */
  lemma PlatformWithoutVersion(p: Platform)
    requires Token(p.os) && Token(p.arch)
    ensures ParsePlatform(p.os + "; " + p.arch) == Some((p, None))
  {
    var a, b := p.os, " " + p.arch;
    assert p.os + "; " + p.arch == a + [';'] + b;
    SplitConcat(a, b, ';');
    SplitWhole(a, ';');
    SplitWhole(b, ';');
    assert Unspace(b) == p.arch;
  }

  /** Helper: the fields of a user agent with a version. */
  lemma PlatformWithVersion(p: Platform, version: string)
    requires Token(p.os) && Token(p.arch) && Token(version)
    ensures ParsePlatform(p.os + "; " + p.arch + ("; " + version)) == Some((p, Some(version)))
  {
    var a, b, c := p.os, " " + p.arch, " " + version;
    var inner := p.os + "; " + p.arch + ("; " + version);
    GlueWithVersion(p.os, p.arch, version);
    SplitThree(a, b, c, ';');
    var parts := Split(inner, ';');
    assert parts == [a, b, c];
    UnspaceSpaced(p.arch);
    UnspaceSpaced(version);
  }

  /** Helper: the `; `-separated spelling is the `;`-separated one with spaced fields. */
  lemma GlueWithVersion(os: string, arch: string, version: string)
    ensures os + "; " + arch + ("; " + version) == os + [';'] + ((" " + arch) + [';'] + (" " + version))
  {
  }

  /** Helper: `Unspace` removes the space the user agent puts after a separator. */
  lemma UnspaceSpaced(x: string)
    ensures Unspace(" " + x) == x
  {
  }

  /** Helper: three separator-free fields glued by the separator split back apart. */
  lemma SplitThree(a: string, b: string, c: string, sep: char)
    requires sep !in a && sep !in b && sep !in c
    ensures Split(a + [sep] + (b + [sep] + c), sep) == [a, b, c]
  {
    SplitConcat(a, b + [sep] + c, sep);
    SplitConcat(b, c, sep);
    SplitWhole(a, sep);
    SplitWhole(b, sep);
    SplitWhole(c, sep);
  }

  /** `Header.Get`: the first value under `name`, or empty when there is none. */
  function HeaderGet(hs: seq<Header>, name: string): (v: string)
    ensures (forall k :: 0 <= k < |hs| ==> hs[k].name != name) ==> v == ""
    ensures v != "" ==> exists k :: 0 <= k < |hs| && hs[k] == Header(name, v)
    ensures (exists k :: 0 <= k < |hs| && hs[k].name == name) ==>
      exists k :: 0 <= k < |hs| && hs[k].name == name && v == hs[k].value && NoneNamedBefore(hs, name, k)
  {
    if |hs| == 0 then ""
    else if hs[0].name == name then
      assert NoneNamedBefore(hs, name, 0);
      hs[0].value
    else
      var v := HeaderGet(hs[1..], name);
      assert forall k :: 1 <= k < |hs| ==> hs[k] == hs[1..][k - 1];
      assert (exists k :: 0 <= k < |hs| && hs[k].name == name) ==> FirstNamedShifts(hs, name, v) by {
        if exists k :: 0 <= k < |hs| && hs[k].name == name {
          var k :| 0 <= k < |hs| && hs[k].name == name;
          assert hs[1..][k - 1].name == name;
          var k' :| 0 <= k' < |hs[1..]| && hs[1..][k'].name == name && v == hs[1..][k'].value && NoneNamedBefore(hs[1..], name, k');
          NoneNamedBeforeShift(hs, name, k');
        }
      }
      v
  }

  /** No header before position `k` is called `name`. */
  predicate NoneNamedBefore(hs: seq<Header>, name: string, k: int) {
    forall j :: 0 <= j < k && j < |hs| ==> hs[j].name != name
  }

  /** Some header is called `name`, carries `v`, and is the first so called. */
  predicate FirstNamedShifts(hs: seq<Header>, name: string, v: string) {
    exists k :: 0 <= k < |hs| && hs[k].name == name && v == hs[k].value && NoneNamedBefore(hs, name, k)
  }

  /** Helper: a first match in the tail is a first match in the whole, one place on, when the head does not match. */
  lemma NoneNamedBeforeShift(hs: seq<Header>, name: string, k: nat)
    requires |hs| > 0 && hs[0].name != name && k < |hs| - 1
    requires NoneNamedBefore(hs[1..], name, k) && hs[1..][k].name == name
    ensures NoneNamedBefore(hs, name, k + 1) && hs[k + 1].name == name && hs[k + 1] == hs[1..][k]
  {
    forall j | 0 < j < k + 1
      ensures hs[j].name != name
    {
      assert hs[j] == hs[1..][j - 1];
    }
  }

  const JsonType := "application/json"

  /** The headers every request carries: the access token, JSON both ways, and who is asking. */
  function StandardHeaders(c: Config, ua: string): (hs: seq<Header>)
    ensures HeaderGet(hs, "X-Shopify-Access-Token") == c.password
    ensures HeaderGet(hs, "Content-Type") == JsonType
    ensures HeaderGet(hs, "Accept") == JsonType
    ensures HeaderGet(hs, "User-Agent") == ua
  {
    var hs := [Header("X-Shopify-Access-Token", c.password), Header("Content-Type", JsonType),
               Header("Accept", JsonType), Header("User-Agent", ua)];
    assert hs[1..][1..][1..] == [Header("User-Agent", ua)];
    assert HeaderGet(hs[1..][1..], "Accept") == JsonType;
    assert HeaderGet(hs[1..][1..][1..], "User-Agent") == ua;
    assert HeaderGet(hs[1..][1..], "User-Agent") == ua;
    assert HeaderGet(hs[1..], "User-Agent") == ua;
    assert HeaderGet(hs[1..], "Accept") == JsonType;
    hs
  }

  /** A URL that starts with `:` has an empty scheme, which Go's URL parser refuses. */
  predicate MissingScheme(url: string) {
    |url| > 0 && url[0] == ':'
  }

  /**
   * Parse a URL: the missing-scheme rule, then whatever else the parser
   * refuses, given as `reject` (the reason, or `None` when it accepts).
   */
  function ParseUrl(url: string, reject: string -> Option<string>): (r: Option<string>)
    ensures MissingScheme(url) ==> r == Some("missing protocol scheme")
    ensures !MissingScheme(url) ==> r == reject(url)
  {
    if MissingScheme(url) then Some("missing protocol scheme") else reject(url)
  }

  /** The part of a URL the parser reads: everything before the first `#`. */
  function BeforeFragment(url: string): (u: string)
    ensures u <= url && '#' !in u
    ensures |u| < |url| ==> url[|u|] == '#'
  {
    if |url| == 0 || url[0] == '#' then ""
    else [url[0]] + BeforeFragment(url[1..])
  }

  /**
   * The error a refused URL becomes. The parser sets the fragment aside
   * before parsing, so the error names only the text before the first `#`.
   */
  function ParseError(url: string, reason: string): (e: string)
    ensures Contains(e, BeforeFragment(url)) && Contains(e, reason)
    ensures '#' !in reason ==> '#' !in e
  {
    var u := BeforeFragment(url);
    var e := "parse " + u + ": " + reason;
    assert u <= e[6..];
    ContainsSuffix("parse " + u + ": ", reason);
    assert '#' !in reason ==> '#' !in e by {
      if '#' !in reason {
        assert forall i :: 0 <= i < |e| ==> e[i] in "parse " || e[i] in u || e[i] in ": " || e[i] in reason;
      }
    }
    e
  }

  /** For the tests' `://#nksd`, the error names `://` and not the fragment. */
  lemma FragmentLeftOutOfError(url: string, reason: string)
    requires url == "://#nksd" && '#' !in reason
    ensures BeforeFragment(url) == "://"
    ensures Contains(ParseError(url, reason), "://") && !Contains(ParseError(url, reason), url)
  {
    assert url == "://" + "#nksd";
    assert BeforeFragment(url[1..][1..][1..]) == "";
    assert url[3] == '#';
  }

  /** What a request carries after the headers. */
  datatype Body = NoBody | Raw(text: string) | JsonBody(json: Json)

  /** A built request. */
  datatype ShopifyRequest = ShopifyRequest(expects: ResponseType, httpMethod: string, url: string, headers: seq<Header>, body: Body)

  /**
   * `newShopifyRequest`: a body-less request with the standard headers, or
   * the parse error when the target URL is refused.
   */
  function NewShopifyRequest(c: Config, expects: ResponseType, verb: Verb, url: string,
                             reject: string -> Option<string>, p: Platform, version: Option<string>): (r: Result<ShopifyRequest, string>)
    ensures r.Success? <==> ParseUrl(url, reject).None?
    ensures r.Failure? ==> Contains(r.error, BeforeFragment(url))
    ensures r.Success? ==> && r.value.httpMethod == Method(verb) && r.value.url == url && r.value.expects == expects
                           && r.value.body == NoBody
                           && HeaderGet(r.value.headers, "X-Shopify-Access-Token") == c.password
                           && HeaderGet(r.value.headers, "Content-Type") == JsonType
                           && HeaderGet(r.value.headers, "Accept") == JsonType
                           && HeaderGet(r.value.headers, "User-Agent") == UserAgent(p, version)
  {
    match ParseUrl(url, reject)
    case Some(reason) => Failure(ParseError(url, reason))
    case None => Success(ShopifyRequest(expects, Method(verb), url, StandardHeaders(c, UserAgent(p, version)), NoBody))
  }

  /** A target like `://#nksd` is refused whatever else the parser accepts. */
  lemma SchemelessTargetRejected(c: Config, expects: ResponseType, verb: Verb, url: string,
                                 reject: string -> Option<string>, p: Platform, version: Option<string>)
    requires url == "://#nksd"
    ensures NewShopifyRequest(c, expects, verb, url, reject, p, version).Failure?
  {
    assert url[0] == ':';
  }

  /** `setBody`: the request now carries exactly `text`, and nothing else about it changed; never an error. */
  function SetBody(req: ShopifyRequest, text: string): (r: (ShopifyRequest, Option<string>))
    ensures r.1.None?
    ensures r.0.body.Raw? && r.0.body.text == text
    ensures r.0.(body := req.body) == req
  {
    (req.(body := Raw(text)), None)
  }

  /** `setJSONBody`: the request now carries the JSON value; encoding a tree of strings cannot fail. */
  function SetJsonBody(req: ShopifyRequest, j: Json): (r: (ShopifyRequest, Option<string>))
    ensures r.1.None?
    ensures r.0.body == JsonBody(j)
    ensures r.0.(body := req.body) == req
  {
    (req.(body := JsonBody(j)), None)
  }

  /** The HTTP client: its configuration, timeout, and the proxy its transport goes through, if any. */
  datatype Client = Client(config: Config, timeout: int, proxy: Option<string>)

  /**
   * `newHTTPClient`: the configured timeout, and a proxying transport when
   * a proxy is configured; a proxy URL the parser refuses fails
   * construction before anything is sent.
   */
  function NewHttpClient(c: Config, reject: string -> Option<string>): (r: Result<Client, string>)
    ensures r.Failure? <==> c.proxy != "" && ParseUrl(c.proxy, reject).Some?
    ensures r.Failure? ==> Contains(r.error, BeforeFragment(c.proxy))
    ensures r.Success? ==> r.value.config == c && r.value.timeout == c.timeout
    ensures r.Success? ==> (r.value.proxy.Some? <==> c.proxy != "")
    ensures r.Success? && c.proxy != "" ==> r.value.proxy == Some(c.proxy)
  {
    if c.proxy == "" then Success(Client(c, c.timeout, None))
    else
      match ParseUrl(c.proxy, reject)
      case Some(reason) => Failure(ParseError(c.proxy, reason))
      case None => Success(Client(c, c.timeout, Some(c.proxy)))
  }

  /** A proxy like `://abc!21@` fails client construction whatever else the parser accepts. */
  lemma SchemelessProxyRejected(c: Config, reject: string -> Option<string>)
    requires c.proxy == "://abc!21@"
    ensures NewHttpClient(c, reject).Failure?
  {
    assert c.proxy[0] == ':';
  }
}

=== FILE: split_join.dfy ===
/**
 * The algebra of `Split` and `Join` over a one-character separator that
 * the path and header code relies on: where the first separator is, how
 * a split distributes over a glued text, and that splitting and joining
 * undo each other.
 */
module SplitJoinLaws {
  import opened Strings

  /** Joining one more part appends a separator and that part. */
  lemma {:induction false} JoinSnoc(parts: seq<string>, sep: char, x: string)
    requires |parts| > 0
    ensures Join(parts + [x], sep) == Join(parts, sep) + [sep] + x
    decreases |parts|
  {
    if |parts| == 1 {
      assert parts + [x] == [parts[0], x];
    } else {
      assert (parts + [x])[1..] == parts[1..] + [x];
      JoinSnoc(parts[1..], sep, x);
    }
  }


  /** The first `c` is wherever `c` occurs with none before it. */
  lemma IndexOfUnique(s: string, c: char, i: nat)
    requires i <= |s|
    requires i < |s| ==> s[i] == c
    requires forall k :: 0 <= k < i ==> s[k] != c
    ensures IndexOf(s, c) == i
  {
  }

  /** The first separator of `a + [sep] + b` is the first of `a`, or the glue. */
  lemma IndexOfGlued(a: string, b: string, sep: char)
    ensures IndexOf(a + [sep] + b, sep) == IndexOf(a, sep)
  {
    var s := a + [sep] + b;
    var i := IndexOf(a, sep);
    assert forall k :: 0 <= k < |a| ==> s[k] == a[k];
    assert s[|a|] == sep;
    IndexOfUnique(s, sep, i);
  }

  /** A split cuts at the first separator. */
  lemma SplitAtFirst(s: string, sep: char, i: nat)
    requires i < |s| && IndexOf(s, sep) == i
    ensures Split(s, sep) == [s[..i]] + Split(s[i + 1..], sep)
  {
  }

  /** Splitting two texts glued by a separator splits each of them. */
  lemma {:induction false} SplitConcat(a: string, b: string, sep: char)
    ensures Split(a + [sep] + b, sep) == Split(a, sep) + Split(b, sep)
    decreases |a|
  {
    var s := a + [sep] + b;
    var i := IndexOf(a, sep);
    IndexOfGlued(a, b, sep);
    SplitAtFirst(s, sep, i);
    if i == |a| {
      assert s[..|a|] == a && s[|a| + 1..] == b;
      assert Split(a, sep) == [a];
    } else {
      var rest := a[i + 1..];
      SplitConcat(rest, b, sep);
      SplitConcatStep(a, b, sep, i);
    }
  }

  /** Helper: the inductive step of `SplitConcat`, cutting `a` at its first separator `i`. */
  lemma SplitConcatStep(a: string, b: string, sep: char, i: nat)
    requires i < |a| && IndexOf(a, sep) == i
    requires IndexOf(a + [sep] + b, sep) == i
    requires Split(a[i + 1..] + [sep] + b, sep) == Split(a[i + 1..], sep) + Split(b, sep)
    ensures Split(a + [sep] + b, sep) == Split(a, sep) + Split(b, sep)
  {
    var s := a + [sep] + b;
    var x, rs, bs := a[..i], Split(a[i + 1..], sep), Split(b, sep);
    GluedSlices(a, b, sep, i);
    SplitAtFirst(s, sep, i);
    assert Split(s, sep) == [x] + (rs + bs);
    SplitAtFirst(a, sep, i);
    assert Split(a, sep) == [x] + rs;
    AppendAssoc([x], rs, bs);
  }

  /** Helper: concatenation is associative. */
  lemma AppendAssoc<T>(x: seq<T>, y: seq<T>, z: seq<T>)
    ensures x + (y + z) == (x + y) + z
  {
  }

  /** Helper: cutting `a + [sep] + b` inside `a`. */
  lemma GluedSlices(a: string, b: string, sep: char, i: nat)
    requires i < |a|
    ensures (a + [sep] + b)[..i] == a[..i]
    ensures (a + [sep] + b)[i + 1..] == a[i + 1..] + [sep] + b
  {
  }

  /** Text without the separator splits into itself alone. */
  lemma SplitWhole(s: string, sep: char)
    requires sep !in s
    ensures Split(s, sep) == [s]
  {
    assert IndexOf(s, sep) == |s|;
  }

  /** Joining the pieces of a split gives back the original text. */
  lemma {:induction false} JoinSplit(s: string, sep: char)
    ensures Join(Split(s, sep), sep) == s
    decreases |s|
  {
    var i := IndexOf(s, sep);
    if i < |s| {
      var head, tail := s[..i], s[i + 1..];
      var rest := Split(tail, sep);
      JoinSplit(tail, sep);
      var parts := [head] + rest;
      assert Split(s, sep) == parts;
      assert |parts| >= 2 && parts[0] == head && parts[1..] == rest;
      assert Join(parts, sep) == head + [sep] + Join(rest, sep);
      assert s == head + [sep] + tail;
    }
  }

  /** Splitting a join of separator-free pieces gives back the pieces. */
  lemma {:induction false} SplitJoin(parts: seq<string>, sep: char)
    requires |parts| > 0
    requires forall k :: 0 <= k < |parts| ==> sep !in parts[k]
    ensures Split(Join(parts, sep), sep) == parts
  {
    var s := Join(parts, sep);
    if |parts| == 1 {
      assert s == parts[0];
      SplitWhole(s, sep);
    } else {
      var p0, rest := parts[0], parts[1..];
      assert sep !in p0;
      assert forall k :: 0 <= k < |rest| ==> rest[k] == parts[k + 1];
      var tail := Join(rest, sep);
      JoinCons(parts, sep);
      SplitConcat(p0, tail, sep);
      SplitWhole(p0, sep);
      SplitJoin(rest, sep);
      assert parts == [p0] + rest;
    }
  }

  /** A join of two or more pieces is the first, a separator, and the join of the rest. */
  lemma JoinCons(parts: seq<string>, sep: char)
    requires |parts| >= 2
    ensures Join(parts, sep) == parts[0] + [sep] + Join(parts[1..], sep)
  {
  }

  /** A join begins with its first piece. */
  lemma {:induction false} JoinStartsWithFirst(parts: seq<string>, sep: char)
    requires |parts| > 0
    ensures parts[0] <= Join(parts, sep)
  {
  }

  /** A join of pieces whose last one is non-empty ends with that piece's last character. */
  lemma {:induction false} JoinEndsWithLast(parts: seq<string>, sep: char)
    requires |parts| > 0 && |parts[|parts| - 1]| > 0
    ensures var s := Join(parts, sep); |s| > 0 && s[|s| - 1] == parts[|parts| - 1][|parts[|parts| - 1]| - 1]
    decreases |parts|
  {
    if |parts| > 1 {
      JoinEndsWithLast(parts[1..], sep);
    }
  }

  /**
   * The text after a separator inside a join is the join of a proper,
   * non-empty suffix of the pieces; `m` says which suffix.
   */
  lemma {:induction false} JoinSuffixAfterSeparator(parts: seq<string>, sep: char, k: nat) returns (m: nat)
    requires forall j :: 0 <= j < |parts| ==> sep !in parts[j]
    requires k < |Join(parts, sep)| && Join(parts, sep)[k] == sep
    ensures 1 <= m < |parts|
    ensures Join(parts, sep)[k + 1..] == Join(parts[m..], sep)
    decreases |parts|
  {
    var s := Join(parts, sep);
    if |parts| <= 1 {
      assert false;
    } else {
      var p0 := parts[0];
      var tail := Join(parts[1..], sep);
      assert s == p0 + [sep] + tail;
      assert forall j :: 0 <= j < |p0| ==> s[j] == p0[j];
      if k == |p0| {
        m := 1;
        assert s[k + 1..] == tail;
      } else {
        var k' := k - |p0| - 1;
        assert tail[k'] == s[k];
        var m' := JoinSuffixAfterSeparator(parts[1..], sep, k');
        m := m' + 1;
        assert s[k + 1..] == tail[k' + 1..];
        assert parts[1..][m'..] == parts[m..];
      }
    }
  }
}

=== FILE: strings.dfy ===
/**
 * Character-level helpers that the Go standard library provides to the
 * source: searching for a separator, `strings.Split`, `strings.Join`,
 * `strings.TrimPrefix`, and decimal formatting of integers (`%d`).
 */
module Strings {

  /** Index of the first `c` in `s`, or `|s|` when `s` has none. */
  function IndexOf(s: string, c: char): (i: nat)
    ensures i <= |s|
    ensures i < |s| ==> s[i] == c
    ensures forall k :: 0 <= k < i ==> s[k] != c
  {
    if |s| == 0 then 0
    else if s[0] == c then 0
    else 1 + IndexOf(s[1..], c)
  }

  /** `strings.Split(s, sep)` for a one-character separator. */
  function Split(s: string, sep: char): (parts: seq<string>)
    ensures |parts| > 0
    ensures forall k :: 0 <= k < |parts| ==> sep !in parts[k]
    decreases |s|
  {
    var i := IndexOf(s, sep);
    if i == |s| then [s] else [s[..i]] + Split(s[i + 1..], sep)
  }

  /** `strings.Join(parts, sep)` for a one-character separator. */
  function Join(parts: seq<string>, sep: char): string
  {
    if |parts| == 0 then ""
    else if |parts| == 1 then parts[0]
    else parts[0] + [sep] + Join(parts[1..], sep)
  }

  /** `strings.TrimPrefix`: drop `prefix` when `s` starts with it. */
  function TrimPrefix(s: string, prefix: string): (r: string)
    ensures prefix <= s ==> prefix + r == s
    ensures !(prefix <= s) ==> r == s
  {
    if prefix <= s then s[|prefix|..] else s
  }

  /** `strings.Contains`: `sub` occurs somewhere in `s`. */
  predicate Contains(s: string, sub: string) {
    exists k :: 0 <= k <= |s| && sub <= s[k..]
  }

  /** A text contains whatever it ends with. */
  lemma ContainsSuffix(head: string, sub: string)
    ensures Contains(head + sub, sub)
  {
    var s := head + sub;
    assert s[|head|..] == sub;
  }

  /** The ASCII digit for `d`. */
  function DigitChar(d: nat): (c: char)
    requires d < 10
    ensures '0' <= c <= '9'
  {
    ('0' as int + d) as char
  }

  predicate IsDigits(s: string) {
    forall k :: 0 <= k < |s| ==> '0' <= s[k] <= '9'
  }

  /** Decimal rendering of a natural number, as `%d` / `%v` print it. */
  function Decimal(n: nat): (s: string)
    ensures |s| > 0 && IsDigits(s)
    ensures n >= 10 ==> s[0] != '0'
  {
    if n < 10 then [DigitChar(n)] else Decimal(n / 10) + [DigitChar(n % 10)]
  }

  /** The value of a string of decimal digits. */
  function ParseDecimal(s: string): nat
    requires IsDigits(s)
  {
    if |s| == 0 then 0
    else ParseDecimal(s[..|s| - 1]) * 10 + (s[|s| - 1] as int - '0' as int)
  }

  /** Decimal rendering is undone by parsing, so distinct numbers print differently. */
  lemma {:induction false} ParseDecimalOfDecimal(n: nat)
    ensures ParseDecimal(Decimal(n)) == n
  {
    if n >= 10 {
      var s := Decimal(n);
      ParseDecimalOfDecimal(n / 10);
      assert s[..|s| - 1] == Decimal(n / 10);
    }
  }

  /** `%d` of a signed integer: a minus sign followed by the magnitude. */
  function FormatInt(i: int): (s: string)
    ensures |s| > 0
    ensures i < 0 <==> s[0] == '-'
    ensures i >= 0 ==> IsDigits(s) && ParseDecimal(s) == i
    ensures i < 0 ==> IsDigits(s[1..]) && ParseDecimal(s[1..]) == -i
  {
    ParseDecimalOfDecimal(if i < 0 then -i else i);
    if i < 0 then "-" + Decimal(-i) else Decimal(i)
  }

  /** Distinct integers are formatted differently. */
  lemma FormatIntInjective(i: int, j: int)
    requires FormatInt(i) == FormatInt(j)
    ensures i == j
  {
  }

  /** The middle of `pre + x + post` is determined by the whole. */
  lemma MiddleInjective(pre: string, x: string, y: string, post: string)
    requires pre + x + post == pre + y + post
    ensures x == y
  {
    var s, t := pre + x + post, pre + y + post;
    assert |x| == |y|;
    assert x == s[|pre|..|pre| + |x|];
    assert y == t[|pre|..|pre| + |y|];
  }
}

=== FILE: transport.dfy ===
/**
 * The shape of what the HTTP client sends to the store's admin API: the
 * admin URL and the endpoints under it, the verb of each request, the
 * query string of an asset query and the JSON bodies of writes, and the
 * kind of response each request expects.  Bytes on the wire are not
 * modelled; JSON is a small tree.
 */
module Transport {
  import opened Wrappers
  import opened Strings
  import opened SplitJoinLaws
  import opened Assets

  /** The client's connection settings. */
  datatype Config = Config(domain: string, themeId: string, password: string, proxy: string, timeout: int)

  /** The theme id that means the shop's published theme. */
  const Live := "live"

  /**
   * `AdminURL`: the shop's admin root, scoped to the configured theme unless
   * that theme is the live one.
   */
  function AdminUrl(c: Config): (url: string)
    ensures "https://" + c.domain + "/admin" <= url
    ensures url == "https://" + c.domain + "/admin" <==> c.themeId == Live
    ensures c.themeId != Live ==> url[|"https://" + c.domain + "/admin"|..] == "/themes/" + c.themeId
  {
    var root := "https://" + c.domain + "/admin";
    if c.themeId == Live then root else root + "/themes/" + c.themeId
  }

  /** Two configurations for the same shop address the same admin root exactly when they name the same theme. */
  lemma AdminUrlInjective(c1: Config, c2: Config)
    requires c1.domain == c2.domain
    ensures AdminUrl(c1) == AdminUrl(c2) <==> c1.themeId == c2.themeId
  {
    var root := "https://" + c1.domain + "/admin";
    if AdminUrl(c1) == AdminUrl(c2) && c1.themeId != Live && c2.themeId != Live {
      assert AdminUrl(c1)[|root|..] == AdminUrl(c2)[|root|..];
      assert "/themes/" + c1.themeId == "/themes/" + c2.themeId;
      assert c1.themeId == ("/themes/" + c1.themeId)[8..];
    }
  }

  /** `AssetPath`: the asset endpoint of the admin root. */
  function AssetPath(c: Config): (url: string)
    ensures AdminUrl(c) <= url && url[|AdminUrl(c)|..] == "/assets.json"
  {
    AdminUrl(c) + "/assets.json"
  }

  /** `ThemesPath`: the theme collection endpoint of the admin root. */
  function ThemesPath(c: Config): (url: string)
    ensures AdminUrl(c) <= url && url[|AdminUrl(c)|..] == "/themes.json"
  {
    AdminUrl(c) + "/themes.json"
  }

  /** `ThemePath(id)`: one theme's endpoint under the admin root. */
  function ThemePath(c: Config, id: int): (url: string)
    ensures AdminUrl(c) <= url && url[|AdminUrl(c)|..] == "/themes/" + FormatInt(id) + ".json"
  {
    var tail := "/themes/" + FormatInt(id) + ".json";
    SuffixAfter(AdminUrl(c), tail);
    AdminUrl(c) + tail
  }

  /** Helper: `a + b` starts with `a` and continues with `b`. */
  lemma SuffixAfter(a: string, b: string)
    ensures a <= a + b && (a + b)[|a|..] == b
  {
  }

  /** Distinct theme ids give distinct endpoints. */
  lemma ThemePathInjective(c: Config, id1: int, id2: int)
    ensures ThemePath(c, id1) == ThemePath(c, id2) <==> id1 == id2
  {
    if ThemePath(c, id1) == ThemePath(c, id2) {
      var n := |AdminUrl(c)|;
      assert ThemePath(c, id1)[n..] == ThemePath(c, id2)[n..];
      MiddleInjective("/themes/", FormatInt(id1), FormatInt(id2), ".json");
      FormatIntInjective(id1, id2);
    }
  }

  /** The asset, theme-collection and theme endpoints never coincide. */
  lemma EndpointsDistinct(c: Config, id: int)
    ensures AssetPath(c) != ThemesPath(c)
    ensures ThemesPath(c) != ThemePath(c, id)
    ensures AssetPath(c) != ThemePath(c, id)
  {
    var n := |AdminUrl(c)|;
    assert AssetPath(c)[n + 1] == 'a' && ThemesPath(c)[n + 1] == 't';
    assert ThemesPath(c)[n + 7] == '.' && ThemePath(c, id)[n + 7] == '/';
    assert ThemePath(c, id)[n + 1] == 't';
  }

  /** What a request does to the remote store. */
  datatype Verb = Create | Retrieve | Update | Remove

  /** The HTTP method each verb travels as. */
  function Method(v: Verb): (m: string)
    ensures m in {"POST", "GET", "PUT", "DELETE"}
    ensures v == Create <==> m == "POST"
    ensures v == Retrieve <==> m == "GET"
    ensures v == Update <==> m == "PUT"
    ensures v == Remove <==> m == "DELETE"
  {
    match v
    case Create => "POST"
    case Retrieve => "GET"
    case Update => "PUT"
    case Remove => "DELETE"
  }

  /** No two verbs share a method, so the method tells the verb. */
  lemma MethodInjective(v1: Verb, v2: Verb)
    ensures Method(v1) == Method(v2) <==> v1 == v2
  {
  }

  /** The verb an HTTP method stands for, if any. */
  function VerbOf(m: string): (v: Option<Verb>)
    ensures v.None? <==> m !in {"POST", "GET", "PUT", "DELETE"}
  {
    if m == "POST" then Some(Create)
    else if m == "GET" then Some(Retrieve)
    else if m == "PUT" then Some(Update)
    else if m == "DELETE" then Some(Remove)
    else None
  }

  /** `VerbOf` undoes `Method`, and a method names a verb only as that verb's method. */
  lemma MethodRoundTrip(v: Verb, m: string)
    ensures VerbOf(Method(v)) == Some(v)
    ensures VerbOf(m) == Some(v) <==> Method(v) == m
  {
  }

  /** One `name=value` query parameter. */
  datatype Param = Param(name: string, value: string)

  /** The fields every asset query asks for. */
  const AssetFields := "key,attachment,value"

  /** The filter name that narrows a query to one asset. */
  const AssetKeyFilter := "asset[key]"

  /** A parameter that survives the query string: no `&` anywhere and no `=` in its name. */
  predicate Spellable(p: Param) {
    '&' !in p.name && '&' !in p.value && '=' !in p.name
  }

  function Encode(p: Param): string {
    p.name + "=" + p.value
  }

  function EncodeAll(params: seq<Param>): (parts: seq<string>)
    ensures |parts| == |params|
    ensures forall k :: 0 <= k < |params| ==> parts[k] == Encode(params[k])
  {
    if |params| == 0 then [] else [Encode(params[0])] + EncodeAll(params[1..])
  }

  /**
   * The raw query of an asset query: the field list first, then each
   * filter parameter in order, joined by `&` and not escaped.
   */
  function RawQuery(params: seq<Param>): (q: string)
    ensures "fields=" + AssetFields <= q
    ensures params == [] ==> q == "fields=" + AssetFields
  {
    var parts := [Encode(Param("fields", AssetFields))] + EncodeAll(params);
    JoinStartsWithFirst(parts, '&');
    Join(parts, '&')
  }

  /** Reading one parameter back: the name runs to the first `=`. */
  function DecodeParam(s: string): (p: Param)
    ensures '=' !in p.name
  {
    var i := IndexOf(s, '=');
    if i == |s| then Param(s, "") else Param(s[..i], s[i + 1..])
  }

  /** Reading a raw query back into its parameters. */
  function ParseQuery(q: string): (params: seq<Param>)
    ensures |params| == |Split(q, '&')|
  {
    var parts := Split(q, '&');
    seq(|parts|, k requires 0 <= k < |parts| => DecodeParam(parts[k]))
  }

  lemma DecodeEncodedParam(p: Param)
    requires '=' !in p.name
    ensures DecodeParam(Encode(p)) == p
  {
    var s := Encode(p);
    assert s[|p.name|] == '=';
    assert forall k :: 0 <= k < |p.name| ==> s[k] == p.name[k];
    assert IndexOf(s, '=') == |p.name|;
    assert s[..|p.name|] == p.name && s[|p.name| + 1..] == p.value;
  }

  /** The raw query reads back as the field list followed by the filters, in order. */
  lemma QueryRoundTrip(params: seq<Param>)
    requires forall k :: 0 <= k < |params| ==> Spellable(params[k])
    ensures ParseQuery(RawQuery(params)) == [Param("fields", AssetFields)] + params
  {
    var all := [Param("fields", AssetFields)] + params;
    var parts := [Encode(Param("fields", AssetFields))] + EncodeAll(params);
    EncodedParts(all, parts);
    SplitJoin(parts, '&');
    var r := ParseQuery(RawQuery(params));
    assert |r| == |all|;
    forall k | 0 <= k < |r|
      ensures r[k] == all[k]
    {
      assert r[k] == DecodeParam(parts[k]);
    }
  }

  /** Helper: each spelled parameter is `&`-free and reads back as itself. */
  lemma EncodedParts(all: seq<Param>, parts: seq<string>)
    requires |all| > 0 && all[0] == Param("fields", AssetFields)
    requires parts == [Encode(all[0])] + EncodeAll(all[1..])
    requires forall k :: 1 <= k < |all| ==> Spellable(all[k])
    ensures |parts| == |all| > 0
    ensures forall k :: 0 <= k < |parts| ==> '&' !in parts[k] && DecodeParam(parts[k]) == all[k]
  {
    FieldsSpellable();
    forall k | 0 <= k < |parts|
      ensures '&' !in parts[k] && DecodeParam(parts[k]) == all[k]
    {
      if k > 0 {
        assert parts[k] == EncodeAll(all[1..])[k - 1] == Encode(all[1..][k - 1]);
        assert all[1..][k - 1] == all[k];
      }
      SpellableReadsBack(all[k]);
    }
  }

  /** Helper: the field list parameter survives the query string. */
  lemma FieldsSpellable()
    ensures Spellable(Param("fields", AssetFields))
  {
  }

  /** Helper: a spellable parameter's spelling is `&`-free and reads back as itself. */
  lemma SpellableReadsBack(p: Param)
    requires Spellable(p)
    ensures '&' !in Encode(p) && DecodeParam(Encode(p)) == p
  {
    DecodeEncodedParam(p);
  }

  /** The empty filter queries exactly `fields=key,attachment,value`. */
  lemma ListQuery()
    ensures RawQuery([]) == "fields=key,attachment,value"
  {
    FieldsSpelled();
  }

  /** Helper: the field list parameter, spelled out. */
  lemma FieldsSpelled()
    ensures "fields=" + AssetFields == "fields=key,attachment,value"
  {
  }

  /** Filtering on one key appends exactly that filter: `fields=key,attachment,value&asset[key]=<file>`. */
  lemma SingleAssetQuery(file: string)
    ensures RawQuery([Param(AssetKeyFilter, file)]) == "fields=" + AssetFields + "&" + AssetKeyFilter + "=" + file
  {
    var first, filter := Encode(Param("fields", AssetFields)), Encode(Param(AssetKeyFilter, file));
    assert EncodeAll([Param(AssetKeyFilter, file)]) == [filter];
    assert [first] + [filter] == [first, filter];
    JoinPair(first, filter, '&');
  }

  /** Helper: joining two parts puts one separator between them. */
  lemma JoinPair(a: string, b: string, sep: char)
    ensures Join([a, b], sep) == a + [sep] + b
  {
    assert [a, b][1..] == [b];
  }

  /** A JSON value, as far as request bodies need one. */
  datatype Json = JString(str: string) | JObject(members: seq<Member>)

  datatype Member = Member(name: string, value: Json)

  /**
   * The first member called `name` in the model's JSON tree.  The objects
   * the model builds and reads back never repeat a name, so which of two
   * equal names a decoder would keep does not arise here.
   */
  function Field(members: seq<Member>, name: string): (r: Option<Json>)
    ensures r.Some? <==> exists k :: 0 <= k < |members| && members[k].name == name
    ensures r.Some? ==> exists k :: 0 <= k < |members| && members[k] == Member(name, r.value)
  {
    if |members| == 0 then None
    else if members[0].name == name then Some(members[0].value)
    else
      var r := Field(members[1..], name);
      assert forall k :: 1 <= k < |members| ==> members[k] == members[1..][k - 1];
      r
  }

  /** A string member decoded into a Go string field: absent is empty, a non-string is an error. */
  function StringField(members: seq<Member>, name: string): Option<string> {
    match Field(members, name)
    case None => Some("")
    case Some(JString(s)) => Some(s)
    case Some(JObject(_)) => None
  }

  /** An asset as the API's JSON object. */
  function AssetJson(a: Asset): Json {
    JObject([Member("key", JString(a.key)), Member("value", JString(a.value)), Member("attachment", JString(a.attachment))])
  }

  /** Decoding a JSON object into an asset. */
  function JsonAsset(j: Json): (r: Option<Asset>)
    ensures j.JString? ==> r.None?
  {
    match j
    case JString(_) => None
    case JObject(ms) =>
      match (StringField(ms, "key"), StringField(ms, "value"), StringField(ms, "attachment"))
      case (Some(k), Some(v), Some(t)) => Some(Asset(k, v, t))
      case _ => None
  }

  lemma AssetJsonRoundTrip(a: Asset)
    ensures JsonAsset(AssetJson(a)) == Some(a)
  {
    var ms := AssetJson(a).members;
    assert ms[1..][1..] == [Member("attachment", JString(a.attachment))];
    assert Field(ms[1..][1..], "attachment") == Some(JString(a.attachment));
    assert Field(ms[1..], "attachment") == Some(JString(a.attachment));
    assert Field(ms[1..], "value") == Some(JString(a.value));
    assert StringField(ms, "key") == Some(a.key);
    assert StringField(ms, "value") == Some(a.value);
    assert StringField(ms, "attachment") == Some(a.attachment);
  }

  /** A theme as the API describes one. */
  datatype Theme = Theme(name: string, source: string, role: string)

  function ThemeJson(t: Theme): Json {
    JObject([Member("name", JString(t.name)), Member("source", JString(t.source)), Member("role", JString(t.role))])
  }

  function JsonTheme(j: Json): (r: Option<Theme>)
    ensures j.JString? ==> r.None?
  {
    match j
    case JString(_) => None
    case JObject(ms) =>
      match (StringField(ms, "name"), StringField(ms, "source"), StringField(ms, "role"))
      case (Some(n), Some(s), Some(r)) => Some(Theme(n, s, r))
      case _ => None
  }

  lemma ThemeJsonRoundTrip(t: Theme)
    ensures JsonTheme(ThemeJson(t)) == Some(t)
  {
    var ms := ThemeJson(t).members;
    assert ms[1..][1..] == [Member("role", JString(t.role))];
    assert Field(ms[1..][1..], "role") == Some(JString(t.role));
    assert Field(ms[1..], "role") == Some(JString(t.role));
    assert Field(ms[1..], "source") == Some(JString(t.source));
    assert StringField(ms, "name") == Some(t.name);
    assert StringField(ms, "source") == Some(t.source);
    assert StringField(ms, "role") == Some(t.role);
  }

  /** A body that wraps one value under one name, as `{"asset": …}` and `{"theme": …}`. */
  function Envelope(name: string, j: Json): (e: Json)
    ensures e.JObject? && Field(e.members, name) == Some(j)
  {
    JObject([Member(name, j)])
  }

  /** The kind of answer a request waits for, which decides how its response is read. */
  datatype ResponseType = AssetResult | ListResult | ThemeResult

  /** A request to the admin API, before it becomes bytes. */
  datatype Request = Request(expects: ResponseType, verb: Verb, target: string, body: Option<Json>)

  /** Whether a filter narrows the query to one asset. */
  predicate NamesOneAsset(params: seq<Param>) {
    exists k :: 0 <= k < |params| && params[k].name == AssetKeyFilter
  }

  /**
   * `AssetQuery(verb, params)`: a body-less request to the asset endpoint
   * carrying the raw query; one asset is expected exactly when the filter
   * names a key, a listing otherwise.
   */
  function AssetQuery(c: Config, verb: Verb, params: seq<Param>): (r: Request)
    ensures r.expects == AssetResult <==> NamesOneAsset(params)
    ensures r.expects == ListResult <==> !NamesOneAsset(params)
    ensures r.verb == verb && r.body.None?
    ensures AssetPath(c) + "?" <= r.target && r.target[|AssetPath(c)| + 1..] == RawQuery(params)
  {
    var expects := if NamesOneAsset(params) then AssetResult else ListResult;
    Request(expects, verb, AssetPath(c) + "?" + RawQuery(params), None)
  }

  /** `AssetAction(verb, asset)`: send the asset under `"asset"` to the asset endpoint, expecting it back. */
  function AssetAction(c: Config, verb: Verb, a: Asset): (r: Request)
    ensures r.expects == AssetResult && r.verb == verb && r.target == AssetPath(c)
    ensures r.body.Some? && r.body.value.JObject?
    ensures var f := Field(r.body.value.members, "asset"); f.Some? && JsonAsset(f.value) == Some(a)
  {
    AssetJsonRoundTrip(a);
    Request(AssetResult, verb, AssetPath(c), Some(Envelope("asset", AssetJson(a))))
  }

  /** The role every theme made by the tool starts with. */
  const Unpublished := "unpublished"

  /** `NewTheme(name, source)`: POST an unpublished theme to the theme collection, expecting a theme. */
  function NewTheme(c: Config, name: string, source: string): (r: Request)
    ensures r.expects == ThemeResult && Method(r.verb) == "POST" && r.target == ThemesPath(c)
    ensures r.body.Some? && r.body.value.JObject?
    ensures var f := Field(r.body.value.members, "theme");
      f.Some? && JsonTheme(f.value) == Some(Theme(name, source, Unpublished))
  {
    ThemeJsonRoundTrip(Theme(name, source, Unpublished));
    Request(ThemeResult, Create, ThemesPath(c), Some(Envelope("theme", ThemeJson(Theme(name, source, Unpublished)))))
  }

  /** `GetTheme(id)`: GET one theme's endpoint, expecting a theme. */
  function GetTheme(c: Config, id: int): (r: Request)
    ensures r.expects == ThemeResult && Method(r.verb) == "GET" && r.body.None?
    ensures r.target == ThemePath(c, id)
  {
    Request(ThemeResult, Retrieve, ThemePath(c, id), None)
  }

  /** A query for one asset and a listing query differ only in what they expect and the filter. */
  lemma QueryKindFollowsFilter(c: Config, file: string)
    ensures AssetQuery(c, Retrieve, []).expects == ListResult
    ensures AssetQuery(c, Retrieve, [Param(AssetKeyFilter, file)]).expects == AssetResult
    ensures Method(AssetQuery(c, Retrieve, []).verb) == "GET"
  {
    assert [Param(AssetKeyFilter, file)][0].name == AssetKeyFilter;
  }
}

=== FILE: wrappers.dfy ===
/** Failure-carrying wrappers shared by every module of the model. */
module Wrappers {

  /** A value that may be absent (Go's nil, or a "not found"). */
  datatype Option<+T> = None | Some(value: T)

  /** A Go `(value, error)` pair where exactly one side is meaningful. */
  datatype Result<+R, +E> = Success(value: R) | Failure(error: E) {
    predicate IsFailure() {
      Failure?
    }

    function PropagateFailure<U>(): Result<U, E>
      requires Failure?
    {
      Failure(error)
    }

    function Extract(): R
      requires Success?
    {
      value
    }
  }
}
